=== FILE: README.md ===
# MakeAPI search query compiler, modelled in Dafny

This project models the query builder of the MakeAPI search service
(`lib/queryBuilder`). The builder turns a flat map of request parameters into an
Elasticsearch query-DSL tree. It does this in five steps:

1. It picks an envelope. The base or advanced shape depends on whether any
   parameter names a search field. Boosted or unboosted depends on whether all
   three boost lists are present (truthy). Anonymous or authenticated is the
   caller's `authenticated` flag. Only the anonymous envelopes keep the
   `published: true` term.
2. It fills the outer bool filter's `must` list, or its `should` list when `or`
   is set, with one filter per recognised key. A value written `{!}x` means
   "not x".
3. It fills the `function_score` functions from the comma-separated boost lists.
4. It clamps `size` and derives `from` from the page.
5. It keeps the sort pairs whose field is sortable.

The modules follow the source files:

| module | models |
|---|---|
| `Wrappers` | `Option` and `Result` |
| `JsRuntime` | The JavaScript built-ins whose edge cases the builder relies on: `indexOf`, array indexing past the end, string truthiness, `split(",")`, `trim`, `replace` with a string pattern, and `parseInt(s, 10)`. |
| `Dsl` | The query tree. Opaque collaborators appear as constructors that record their arguments: `KeyFilter` for `generators.search.filters[key]`, `SearchFilter` for `generic.generateSearchFilter`, and `ScriptSort`/`RegularSort` for `generators.sort`. The request-independent configuration (`generators.search.KEYS`, `VALID_SORT_FIELDS`, `SCRIPT_SORT_TYPES`) is a `Config`. What the JavaScript throws is an `Error`. |
| `Queries` | `generators/queries.js`: the eight envelope templates |
| `Boost` | `generators/boost.js`: one scoring function |
| `Terms` | The `terms` rule written at the top of `generators/index.js` |
| `Search` | `queryTypes/search.js`: the validators, the negation pattern, the filter and boost-filter generators, the four envelope builders, the sort step, and the compiler itself |
| `Utils` | `utils.js` |
| `SearchExamples` | Worked requests through the compiler |

The compiler has two models. `Search.Compile` follows the code as written.
`Search.CompileIntended` builds the boosted base envelope at line 162, as
described under Findings. Each JavaScript `throw` that the modelled inputs can
reach becomes an `Err` outcome, never a precondition:

- a `null` regular-expression match that is then indexed;
- the call to an undefined function;
- calling `indexOf` on an inherited `Object.prototype` property.

Non-string boost lists, which also throw, lie outside the modelled inputs (see
Left out).

The only preconditions the model keeps are facts the JavaScript gets for free:
every recognised key of the request has a value.

Some behaviour of the code is easy to misread, and the model records it as
written:

- Malformed filter input can fail. A recognised filter value that is empty or
  holds a line terminator makes `NOT_REGEX.exec` return `null`, and indexing
  that `null` throws (`search.js:56-57`). The same holds for a boost type
  (`search.js:78-80`).
- The boosted base path has two faults. `generateBoostQuery` uses the
  *authenticated* template in both branches (`search.js:119-128`). The compiler
  never calls `generateBoostQuery` at all: line 162 calls
  `generateBaseBoostQuery`, which is defined nowhere.
- The `terms` rule with its leading `and`/`or` execution token exists only as
  text inside the license comment that opens `generators/index.js` (lines
  1-25). It is modelled as a stand-alone rule (`Terms`). `generators/search.js`,
  which would apply it to `tags`, is not part of this model.
- A sort pair without a direction passes `undefined` on to `generators.sort`,
  which is not part of this model. The model records that order as `None`.
- A filter or boost field named `__proto__` creates no own property: the
  assignment runs the `Object.prototype.__proto__` setter instead. In the
  model the field gets no entry of its own. A terms filter may still hold an
  `execution` entry.

## Model

| member | source | states |
|---|---|---|
| Search.ValidateSize | lib/queryBuilder/queryTypes/search.js:28-36 | The size is always in [1, 1000]. A missing or zero limit gives 10. A limit within bounds is kept. One above 1000 gives 1000 and a negative one gives 1. |
| Search.ValidateSizeIdempotent | lib/queryBuilder/queryTypes/search.js:28-36 | Validating an already validated size changes nothing. |
| Search.ValidatePage | lib/queryBuilder/queryTypes/search.js:42-48 | A missing, zero or negative page gives offset 0. Page p ≥ 1 gives (p-1)·size. The offset is never negative for a positive size. |
| Search.PagesTile | lib/queryBuilder/queryTypes/search.js:42-48 | Page 1 starts at 0, and each following page starts exactly one size further on, so pages tile the results without gaps or overlap. |
| Search.ExecNotRegex | lib/queryBuilder/queryTypes/search.js:19 | `/^(\{!\})?(.+)$/` matches exactly the non-empty texts without a line terminator. The negation group takes part exactly when the text is "{!}" followed by at least one more character. |
| Search.ExecRender | lib/queryBuilder/queryTypes/search.js:19 | The two groups of a match put back together give the matched text. |
| Search.RenderExec | lib/queryBuilder/queryTypes/search.js:19 | A (negated, rest) pair is read back from its rendering if and only if rest is non-empty, has no line terminator, and is not itself negated-looking unless the pair is negated. |
| Search.NegationRule | lib/queryBuilder/queryTypes/search.js:56-57 | A filter value "{!}x" gives the key's filter on x, negated. Any other readable value, "{!}" itself included, gives the filter on the whole value, not negated. |
| Search.RecognizedKeys | lib/queryBuilder/queryTypes/search.js:22-24 | A key is kept exactly when it is among the request keys and among the search keys. |
| Search.RecognizedKeysAppend | lib/queryBuilder/queryTypes/search.js:53-59 | Picking out the recognised keys keeps their order: it distributes over concatenation. |
| Search.AnyRecognized | lib/queryBuilder/queryTypes/search.js:146 | A request is complex exactly when some key of it is a search key. |
| Search.GenerateFilters | lib/queryBuilder/queryTypes/search.js:50-61 | It succeeds exactly when every recognised key's value can be read by the negation pattern. On success it gives one filter per recognised key, in key order: the i-th is that key's filter on its value with the negation the pattern reads. |
| Search.KeptIndices | lib/queryBuilder/queryTypes/search.js:70-77 | These are exactly the indices whose field and value are both truthy, in strictly increasing order. |
| Search.BoostFiltersFrom | lib/queryBuilder/queryTypes/search.js:70-86 | It succeeds exactly when every kept index has a type the negation pattern reads, and it then gives exactly one scoring function per kept index, whose contents `Search.BoostFiltersFromAt` states. |
| Search.BoostFiltersFromAt | lib/queryBuilder/queryTypes/search.js:70-86 | The k-th generated function is the one built from the k-th kept index's type, field, value and boost, so the functions follow the kept indices in order. |
| Search.GenerateBoostFilters | lib/queryBuilder/queryTypes/search.js:63-87 | It fails exactly when some kept index has an unreadable type. It yields no more functions than types, one per kept index. |
| Search.BoostFiltersFollowTypes | lib/queryBuilder/queryTypes/search.js:70-84 | The k-th scoring function filters on the k-th kept index's field and value. It is negated exactly when that index's type is "{!}t" with t other than `match_all`. A field named `__proto__` leaves the field map empty. |
| Search.GenerateComplexQuery | lib/queryBuilder/queryTypes/search.js:89-98 | The advanced envelope over the base query of the same authentication. The filters sit in the chosen occurrence list of the outer bool filter and the other list stays empty. The published term is present exactly for anonymous requests. |
| Search.GenerateBaseQuery | lib/queryBuilder/queryTypes/search.js:100-105 | Exactly the template: `match_all` under one bool filter, whose `must` is [not deleted] for an authenticated request and [not deleted, published] for an anonymous one, and whose `should` is empty. |
| Search.GenerateComplexBoostQuery | lib/queryBuilder/queryTypes/search.js:107-117 | A `function_score` over the complex query of the same arguments, with the given functions and score mode "sum". The published term is present exactly for anonymous requests. |
| Search.GenerateBoostQuery | lib/queryBuilder/queryTypes/search.js:119-128 | As written: a `function_score` with the given functions over the authenticated base query, whatever the flag. |
| Search.BoostQueryIgnoresAuthentication | lib/queryBuilder/queryTypes/search.js:119-128 | As written, the anonymous result equals the authenticated one and lacks the published term. |
| Search.GenerateBaseBoostQuery | lib/queryBuilder/queryTypes/search.js:162 | Corrected: a `function_score` with the given functions over the base query of the request's own authentication. The published term is present exactly for anonymous requests. |
| Search.ValidPairs | lib/queryBuilder/queryTypes/search.js:174-178 | A pair survives exactly when it is a non-empty string whose field before the first comma is sortable. |
| Search.ValidPairsAppend | lib/queryBuilder/queryTypes/search.js:174-178 | Filtering keeps the order of the pairs: it distributes over concatenation. |
| Search.SortClauseFor | lib/queryBuilder/queryTypes/search.js:182-190 | The clause sorts on the text before the pair's first comma. It is a script sort exactly when that field is a script sort type. The order is absent exactly when the pair has no comma, since `pair[1]` is then `undefined`. Otherwise it is the text between the first comma and the next comma or the end. |
| Search.SortPairClause | lib/queryBuilder/queryTypes/search.js:175-190 | A pair "field,order" with no other comma passes the filter exactly when the field is sortable. It sorts on that field in that order, with a script sort exactly for script sort types. |
| Search.SortWordClause | lib/queryBuilder/queryTypes/search.js:175-190 | A non-empty pair without a comma passes the filter exactly when it is a sortable field itself. It sorts on it with no order. |
| Search.GenerateSort | lib/queryBuilder/queryTypes/search.js:173-193 | There is no sort exactly when the parameter is absent or no pair survives. Otherwise there is one clause per surviving pair, in order, each on a sortable field. |
| Search.SelectQuery | lib/queryBuilder/queryTypes/search.js:143-168 | The envelope's shape is (boosted, advanced, authenticated) = (boost lists present, some search key present, flag). Each of the four cases gets its builder: the complex boost query over the generated filters and boost functions, the boosted base query, the complex query over the generated filters, or the base query. Advanced requests carry the generated filters in the chosen occurrence list. Boosted requests carry the boost functions. It fails exactly in the throwing cases: an unreadable boost type, an unreadable filter value, or the undefined call at line 162. The boost functions come from the four boost lists split on commas, with a missing or empty `boostScoringValues` read as "". |
| Search.CompileWith | lib/queryBuilder/queryTypes/search.js:137-193 | It succeeds exactly when envelope selection does. The result holds that envelope, a size in [1, 1000] from the limit, a non-negative offset computed from the page and the validated size, and the sort step's result. |
| Search.Compile | lib/queryBuilder/queryTypes/search.js:132-193 | As written, every boosted request that names no search key fails. Otherwise it fails exactly when a boost type or a recognised filter value cannot be read. |
| Search.CompileIntended | lib/queryBuilder/queryTypes/search.js:151-168 | Corrected: it fails only when a boost type or a recognised filter value cannot be read. A boosted base request gets the boosted base envelope of its own authentication. |
| Search.CompileComplex | lib/queryBuilder/queryTypes/search.js:164-171 | A readable complex request without boost lists compiles to the advanced envelope with its filters, the validated size and the derived offset. |
| Search.CompileComplexBoost | lib/queryBuilder/queryTypes/search.js:151-171 | A readable complex request with parsable boost lists compiles to the complex boost query over its filters and boost functions, with score mode "sum" over the base query of its own authentication, the validated size, the derived offset and the sort step's result. |
| Search.OccurrenceRouting | lib/queryBuilder/queryTypes/search.js:144 | With `or` the filters land in `should` and `must` stays empty. Without it they land in `must` and `should` stays empty. |
| Search.BoostedBaseQueryUndefined | lib/queryBuilder/queryTypes/search.js:159-163 | As written, a boosted request that names no search key always fails. Once its boost lists parse, the failure is a ReferenceError for `generateBaseBoostQuery`. |
| Dsl.WithOccurrenceSets | lib/queryBuilder/queryTypes/search.js:96 | Setting `bool[occurrence]` replaces that list and leaves the other one unchanged. |
| Queries.BaseQuery | lib/queryBuilder/generators/queries.js:19-47 | `match_all`, filtered by `must` = [not deleted, published] with nothing in `should`. |
| Queries.AdvancedQuery | lib/queryBuilder/generators/queries.js:55-69 | An empty outer bool filter around the base query. It keeps the base query's inner filter and its published term. |
| Queries.AuthenticatedBaseQuery | lib/queryBuilder/generators/queries.js:71-75 | Equal to the base query with the published term stripped, leaving only the not-deleted filter. |
| Queries.AuthenticatedAdvancedQuery | lib/queryBuilder/generators/queries.js:77-81 | Equal to the advanced query with the published term stripped. The outer bool filter is untouched and the inner query is the authenticated base query. |
| Queries.BaseBoostQuery | lib/queryBuilder/generators/queries.js:83-93 | A `function_score` with no functions and score mode "sum" over the base query. |
| Queries.AdvancedBoostQuery | lib/queryBuilder/generators/queries.js:95-105 | A `function_score` with no functions and score mode "sum" over the advanced query. |
| Queries.AuthenticatedBaseBoostQuery | lib/queryBuilder/generators/queries.js:107-111 | Equal to the base boost query with the published term stripped, over the authenticated base query. |
| Queries.AuthenticatedAdvancedBoostQuery | lib/queryBuilder/generators/queries.js:113-117 | Equal to the advanced boost query with the published term stripped, over the authenticated advanced query. |
| Queries.StripPublished | lib/queryBuilder/generators/queries.js:73 | The reference for every authenticated template: nothing in the result requires the published term, and the nesting depth is unchanged. |
| Queries.EnvelopesExcludeDeleted | lib/queryBuilder/generators/queries.js:19-117 | The innermost `must` of every anonymous envelope is [not deleted, published]. That of every authenticated envelope is [not deleted] alone. |
| Boost.Filter | lib/queryBuilder/generators/boost.js:17-41 | A `match_all` type gives an empty, never negated filter. Any other type filters its field on its value with the caller's negation, except that a field named `__proto__` adds no entry. A script score is used exactly when the boost is "likes" or "reports", over that relation's size. Otherwise the boost factor is the parsed integer, or 2 when parsing fails. |
| Boost.NumericBoost | lib/queryBuilder/generators/boost.js:36-37 | A boost written as a decimal integer, after white space and before non-digits, becomes exactly that factor and never a script score. |
| Boost.DefaultBoost | lib/queryBuilder/generators/boost.js:36-37 | A missing boost, or one with no digit that is not `likes` or `reports`, gets factor 2. |
| Terms.TrimAll | lib/queryBuilder/generators/index.js:6-8 | Each term is replaced by its trimmed form, which has no white space at either end. |
| Terms.GenerateTermsFilter | lib/queryBuilder/generators/index.js:1-25 | A `terms` filter with the caller's negation. Its own keys are the field, unless the field is `__proto__`, plus `execution` exactly when the first trimmed term is "and" or "or". In that case `execution` holds that token as text. The field holds the remaining trimmed terms, or all of them when there is no token. The exception is a field named `execution` with a token: the token then overwrites the list, so the map is only `{execution: token}`. |
| Terms.LeadingTokenFilter | lib/queryBuilder/generators/index.js:14-21 | Trimmed terms that open with "and" or "or" give exactly that token as `execution` and the other terms as the field's values, for any field other than `__proto__` and `execution`. |
| Terms.TermsIgnorePadding | lib/queryBuilder/generators/index.js:6-8 | Padding the terms with white space does not change the filter. |
| Terms.OnlyFirstTokenInspected | lib/queryBuilder/generators/index.js:14-16 | When the first term is not an execution token, every term is kept, later "and"/"or" included, and there is no execution entry. |
| Terms.AndListExample | lib/queryBuilder/generators/index.js:1-25 | "and,a,b" gives the values ["a", "b"] with execution "and". |
| Utils.NotRegex | lib/queryBuilder/utils.js:25 | `/^\{!\}(.+)$/` matches exactly the negated-looking texts without a line terminator. The group is the text after "{!}". |
| Utils.NotRegexAgreesWithSearch | lib/queryBuilder/utils.js:25 | This mandatory-prefix pattern matches exactly when the compiler's pattern reads the value as negated, and it gives the same rest. |
| Utils.HasValidField | lib/queryBuilder/utils.js:28-30 | True exactly for the search keys. |
| Utils.IsValidFilter | lib/queryBuilder/utils.js:32-40 | False when field, type or query is missing or empty. Otherwise true exactly when the field-to-type table lists the type for the field. It throws exactly for a field named after an inherited object property. |
| Utils.TableExamples | lib/queryBuilder/utils.js:10-21 | `tags` accepts only "terms" filters and `title` only "query" filters. |
| Utils.ValidateSize | lib/queryBuilder/utils.js:44-52 | The size lies in [1, 1000]. A missing or zero limit gives 10, and a limit within bounds is kept. |
| Utils.ValidatePage | lib/queryBuilder/utils.js:58-64 | The page rule of the compiler: offset 0 below page 1, (p-1)·size from page 1. |
| Utils.ValidatorsAgree | lib/queryBuilder/utils.js:44-64 | The utility copies of the validators agree with the compiler's on every input. |
| JsRuntime.IndexOf | lib/queryBuilder/queryTypes/search.js:23 | -1 exactly when the element is absent. Otherwise the position of its first occurrence. |
| JsRuntime.Split | lib/queryBuilder/queryTypes/search.js:154-157 | At least one part, no part contains the separator, and joining the parts gives back the text. |
| JsRuntime.SplitJoin | lib/queryBuilder/queryTypes/search.js:154-157 | Splitting undoes joining whenever no part contains the separator. |
| JsRuntime.JoinHead | lib/queryBuilder/queryTypes/search.js:184 | Joining separator-free parts: the result has no separator exactly when there is one part. The first part, then the separator, opens the result, and with three or more parts the second part and another separator follow. |
| JsRuntime.SplitHead | lib/queryBuilder/queryTypes/search.js:184-186 | `pair.split(",")` has one part exactly when the text has no comma. Its first two parts are the text before the first comma and the text after it up to the next comma or the end. |
| JsRuntime.SplitWithout | lib/queryBuilder/queryTypes/search.js:154-157 | A text without the separator splits into itself alone. |
| JsRuntime.SplitTwo | lib/queryBuilder/queryTypes/search.js:184 | Two separator-free texts joined by one separator split back into the two. |
| JsRuntime.Trim | lib/queryBuilder/generators/index.js:7 | The result has no white space at either end and is the text with its leading and trailing white space removed. |
| JsRuntime.ReplaceFirstPlaceholder | lib/queryBuilder/generators/boost.js:33 | Replacing the placeholder in prefix + placeholder + suffix gives prefix + replacement + suffix when the prefix cannot start a placeholder. |
| JsRuntime.ParseIntDecimal | lib/queryBuilder/generators/boost.js:36 | `parseInt` reads a decimal integer after leading white space and stops at the first non-digit. |
| JsRuntime.ParseIntNoDigits | lib/queryBuilder/generators/boost.js:36 | A text with no digit does not parse. |
| SearchExamples.TitleExample | lib/queryBuilder/queryTypes/search.js:164-171 | `{title: "cat", limit: 5, page: 2}` gives the advanced envelope with the title filter in `must`, size 5 and offset 5. |
| SearchExamples.OrExample | lib/queryBuilder/queryTypes/search.js:144 | `{or: true, tags: "and,a,b"}` puts the tags filter in `should` and leaves `must` empty. |
| SearchExamples.NegatedTitleExample | lib/queryBuilder/queryTypes/search.js:56-57 | `{title: "{!}cat"}` gives the title filter on "cat", negated, in the authenticated envelope. The keys include `limit` and `page`, which the compiler always sets before reading them. |
| SearchExamples.EmptyValueExample | lib/queryBuilder/queryTypes/search.js:56-57 | `{title: ""}`, with `limit` and `page` among the keys, throws: the empty value gives no match. |
| SearchExamples.BoostExampleAsWritten | lib/queryBuilder/queryTypes/search.js:162 | As written, the boost request on `author`/`likes` throws. Its keys are the four boost lists, `limit` and `page`, none of them a search key. |
| SearchExamples.BoostExampleIntended | lib/queryBuilder/queryTypes/search.js:151-163 | Corrected, the same request gives the base envelope under a `function_score` holding one script score over likes. |
| SearchExamples.SortExample | lib/queryBuilder/queryTypes/search.js:173-193 | An unknown field and a non-string are dropped. The survivors keep their order, `likes` gets a script sort, and a pair without a comma has no order. |

## Left out

- The `user` step (`search.js:195-225`) is asynchronous and calls `generators.user`, which is not part of this model. The compiler's result is the query before that step, handed to the callback unchanged when there is no `user`.
- `queryTypes/advancedSearch.js` is not part of this model.
- The `require` wiring of `generators/index.js` (lines 29-38) is not modelled. The per-key filter generators of `generators/search.js`, `generic.generateSearchFilter` and `generators/sort.js` are not part of this model. Their results appear as constructors that record their arguments.
- The argument check that throws "Check your arguments." (`search.js:133-135`) is not modelled: the model's inputs are already an object and a compiler call.
- Numeric coercion: `+query.limit` and `+query.page` are taken as given. `limit` and `page` are integers or absent, and absent also stands for `NaN` and `Infinity`. Fractional sizes and pages, and the mutation of `query.limit`, `query.page` and `query.boostScoringValues`, are not modelled.
- The request's keys are taken as the sequence `Object.keys(query)` would give. The engine's key-ordering rules, such as integer-like keys first, are not modelled.
- Boost.Filter: `parseInt` is modelled on unbounded integers, so the rounding of very long digit strings to a double and the `isFinite` test on them are not modelled. The mutation of `filterSettings.boost` is not modelled.
- JsRuntime.ReplaceFirst: `$` replacement patterns in `String.prototype.replace` are not modelled. The only replacement in the core is a relation name from a fixed list.
- Search.Params: the three boost lists and the scoring list are optional strings. A truthy non-string list, such as an array from a repeated query parameter or a number, makes `.split` throw a TypeError (`search.js:143`, `154-157`). The model cannot express that input, so it does not model that failure.
- Terms.GenerateTermsFilter: for a field named `__proto__` the terms array becomes the filter object's prototype rather than an own property. The model records only own properties, so it keeps no entry for the field. What `generic.generateSearchFilter` does with an inherited property is not part of this model.
- Sort parameters that are neither strings nor arrays, such as numbers or objects, are represented as `NotText` items or as an absent parameter. Either way they produce no sort, as in the code.

## Findings

| source | as written | input that shows it | evidently intended | confidence | as-written member | corrected member |
|---|---|---|---|---|---|---|
| lib/queryBuilder/queryTypes/search.js:162 | The boosted branch of a request that names no search key calls `generateBaseBoostQuery`, which is defined nowhere, so the request throws a ReferenceError. | `{boostFilterTypes: "term", boostFilterFields: "author", boostFilterValues: "alice", boostScoringValues: "likes"}` | Build the base query of the request's authentication under a `function_score` holding the boost functions. | not executed | Search.BoostedBaseQueryUndefined | Search.CompileIntended |
| lib/queryBuilder/queryTypes/search.js:119-128 | `generateBoostQuery` picks the authenticated template in both branches, so an anonymous request would also see unpublished makes. | any boost list with `auth` false | Pick the anonymous boosted base query when not authenticated. | not executed | Search.BoostQueryIgnoresAuthentication | Search.GenerateBaseBoostQuery |

=== FILE: boost.dfy ===
/** `generators/boost.js`: one entry of a `function_score` query, built from
    a filter type, field, value and boost. A boost naming one of the countable
    relations (`likes`, `reports`) scores by a script over that relation's
    size; any other boost is read as an integer `boost_factor`, 2 when it does
    not parse. */
module Boost {
  import opened Wrappers
  import opened JsRuntime
  import opened Dsl

  /** `DEFAULT_BOOST_VAL`: the factor used when the boost does not parse. */
  const DefaultBoostValue: int := 2

  /** `SCRIPT_BOOST` is `ScriptBoostPrefix + FieldPlaceholder + ScriptBoostSuffix`. */
  const ScriptBoostPrefix := "_score * (doc['"
  const FieldPlaceholder := "{{field}}"
  const ScriptBoostSuffix := "._id'].values.length + 1)"
  const ScriptBoost := ScriptBoostPrefix + FieldPlaceholder + ScriptBoostSuffix

  /** `SCRIPT_BOOST_FIELDS` */
  const ScriptBoostFields := ["likes", "reports"]

  /** The language of every boost script. */
  const ScriptLang := "js"

  /** The type of filter that matches every make and so is never negated. */
  const MatchAllType := "match_all"

  /** `filterSettings`: `{type, field, value, boost}`; the boost is
      `undefined` when the scoring-values list is shorter than the types list. */
  datatype BoostSettings = BoostSettings(filterType: string, field: string, value: string, boost: Option<string>)

  /** `parseInt(boost, 10)`, where `undefined` is first turned into the text "undefined". */
  function ParseBoost(boost: Option<string>): Option<int> {
    ParseInt(if boost.Some? then boost.value else "undefined")
  }

  /** The boost names a countable relation. */
  predicate IsScriptBoost(boost: Option<string>) {
    boost.Some? && IndexOf(ScriptBoostFields, boost.value) != -1
  }

  /** `filter(filterSettings, negateFilter)` */
  function Filter(settings: BoostSettings, negateFilter: bool): (f: ScoreFunction)
    ensures settings.filterType == MatchAllType ==> f.filter == SearchFilter(MatchAllType, map[], false)
    ensures settings.filterType != MatchAllType && settings.field != ProtoKey ==>
      f.filter == SearchFilter(settings.filterType, map[settings.field := Text(settings.value)], negateFilter)
    ensures settings.filterType != MatchAllType && settings.field == ProtoKey ==>
      f.filter == SearchFilter(settings.filterType, map[], negateFilter)
    ensures f.scriptScore.Some? <==> f.boostFactor.None?
    ensures f.scriptScore.Some? <==> settings.boost in {Some("likes"), Some("reports")}
    ensures f.scriptScore.Some? ==>
      f.scriptScore.value == Script(ScriptLang, ScriptBoostPrefix + settings.boost.value + ScriptBoostSuffix)
    ensures f.boostFactor.Some? && ParseBoost(settings.boost).Some? ==> f.boostFactor.value == ParseBoost(settings.boost).value
    ensures f.boostFactor.Some? && ParseBoost(settings.boost).None? ==> f.boostFactor.value == DefaultBoostValue
  {
    // `filterMap[field] = value` with a string value: a no-op for `__proto__`
    var filterMap: map<string, FieldValue> :=
      if settings.filterType != MatchAllType && settings.field != ProtoKey then map[settings.field := Text(settings.value)]
      else map[];
    var negate := if settings.filterType != MatchAllType then negateFilter else false;
    var filter := SearchFilter(settings.filterType, filterMap, negate);
    if IsScriptBoost(settings.boost) then
      var field := settings.boost.value;
      ReplaceFirstPlaceholder(ScriptBoostPrefix, FieldPlaceholder, ScriptBoostSuffix, field);
      ScoreFunction(filter, Some(Script(ScriptLang, ReplaceFirst(ScriptBoost, FieldPlaceholder, field))), None)
    else
      var parsed := ParseBoost(settings.boost);
      ScoreFunction(filter, None, Some(if parsed.Some? then parsed.value else DefaultBoostValue))
  }

  /** A boost written as a decimal integer (white space before it, any
      non-digit text after it) becomes exactly that `boost_factor`; such a
      boost never names a countable relation. */
  lemma {:induction false} NumericBoost(settings: BoostSettings, negateFilter: bool, n: int, pad: string, rest: string)
    requires AllWhiteSpace(pad) && (|rest| > 0 ==> !IsDigit(rest[0]))
    requires settings.boost == Some(pad + Decimal(n) + rest)
    ensures Filter(settings, negateFilter).boostFactor == Some(n)
    ensures Filter(settings, negateFilter).scriptScore == None
  {
    var d := Decimal(n);
    var s := pad + d + rest;
    assert d[0] == '-' || IsDigit(d[0]);
    assert s[|pad|] == d[0];
    assert s != "likes" && s != "reports" by {
      assert forall i :: 0 <= i < |"likes"| ==> 'a' <= "likes"[i] <= 'z';
      assert forall i :: 0 <= i < |"reports"| ==> 'a' <= "reports"[i] <= 'z';
    }
    ParseIntDecimal(n, pad, rest);
  }

  /** A boost that is missing or holds no digit at all, and names no
      countable relation, falls back to the default factor 2. */
  lemma {:induction false} DefaultBoost(settings: BoostSettings, negateFilter: bool)
    requires settings.boost.None? || forall i :: 0 <= i < |settings.boost.value| ==> !IsDigit(settings.boost.value[i])
    requires settings.boost !in {Some("likes"), Some("reports")}
    ensures Filter(settings, negateFilter).boostFactor == Some(DefaultBoostValue)
  {
    ParseIntNoDigits(if settings.boost.Some? then settings.boost.value else "undefined");
  }
}

=== FILE: dsl.dfy ===
/** The Elasticsearch query-DSL tree the compiler builds, the read-only
    configuration it consults, and the ways compilation can throw.

    The generators that are not part of this model (the per-key search
    filters and their `KEYS` list, `generic.generateSearchFilter`, and the sort
    generators) are kept opaque: their results are constructors that record the
    arguments they were called with, and their lookup tables are fields of
    `Config`. */
module Dsl {
  import opened Wrappers

  /** A value inside a generic filter's field map: a string or a list of strings. */
  datatype FieldValue = Text(text: string) | TextList(items: seq<string>)

  /** One filter clause of a bool filter, or the filter of a scoring function. */
  datatype Clause =
      /** `{missing: {field: f, null_value: b}}` */
    | Missing(field: string, nullValue: bool)
      /** `{term: {f: b}}` with a boolean value */
    | Term(field: string, flag: bool)
      /** `generators.search.filters[key](value, negate)` */
    | KeyFilter(key: string, value: string, negate: bool)
      /** `generic.generateSearchFilter(type, fields, negate)` */
    | SearchFilter(filterType: string, fields: map<string, FieldValue>, negate: bool)

  /** `{bool: {must: [...], should: [...]}}` */
  datatype BoolFilter = BoolFilter(must: seq<Clause>, should: seq<Clause>)

  /** `{lang: ..., script: ...}` of a `script_score`. */
  datatype Script = Script(lang: string, source: string)

  /** One entry of `function_score.functions`: a filter with either a
      `script_score` or a `boost_factor` (both are optional keys of the
      JavaScript object). */
  datatype ScoreFunction = ScoreFunction(filter: Clause, scriptScore: Option<Script>, boostFactor: Option<int>)

  /** The value under a `query` key. */
  datatype Query =
      /** `{match_all: {}}` */
    | MatchAll
      /** `{filtered: {query: ..., filter: {bool: ...}}}` */
    | Filtered(query: Query, filter: BoolFilter)
      /** `{function_score: {functions: [...], score_mode: ..., query: ...}}` */
    | FunctionScore(functions: seq<ScoreFunction>, scoreMode: string, query: Query)

  /** `generators.sort.generateScriptSort(field, order)` and
      `generators.sort.generateRegularSort(field, order)`; the order is
      `undefined` when the pair has no comma. */
  datatype SortClause =
    | ScriptSort(field: string, order: Option<string>)
    | RegularSort(field: string, order: Option<string>)

  /** The compiled request: `{query, size, from, sort?}`. */
  datatype SearchDsl = SearchDsl(query: Query, size: int, from: int, sort: Option<seq<SortClause>>)

  /** Which list of the outer bool filter receives the generated filters. */
  datatype Occurrence = Must | Should

  /** The read-only tables of the collaborators: `generators.search.KEYS`,
      `generators.sort.VALID_SORT_FIELDS` and `generators.sort.SCRIPT_SORT_TYPES`. */
  datatype Config = Config(searchKeys: seq<string>, validSortFields: seq<string>, scriptSortTypes: seq<string>)

  /** What the JavaScript throws. */
  datatype Error =
      /** TypeError: a regular-expression match was null and was indexed */
    | NoRegexMatch(subject: string)
      /** ReferenceError: a name that is never defined was called */
    | ReferenceError(name: string)
      /** TypeError: a property that is not a function was called */
    | NotAFunction(name: string)

  /** `bool[occurrence] = clauses` */
  function WithOccurrence(b: BoolFilter, occurrence: Occurrence, clauses: seq<Clause>): BoolFilter {
    match occurrence
    case Must => b.(must := clauses)
    case Should => b.(should := clauses)
  }

  /** The list `bool[occurrence]`. */
  function ClausesAt(b: BoolFilter, occurrence: Occurrence): seq<Clause> {
    match occurrence
    case Must => b.must
    case Should => b.should
  }

  /** Setting one occurrence list replaces that list and leaves the other as it was. */
  lemma {:induction false} WithOccurrenceSets(b: BoolFilter, occurrence: Occurrence, clauses: seq<Clause>)
    ensures ClausesAt(WithOccurrence(b, occurrence, clauses), occurrence) == clauses
    ensures occurrence == Must ==> WithOccurrence(b, occurrence, clauses).should == b.should
    ensures occurrence == Should ==> WithOccurrence(b, occurrence, clauses).must == b.must
  {
  }
}

=== FILE: examples.dfy ===
/** Worked requests through the compiler, with a configuration that
    recognises the filter keys they use. */
module SearchExamples {
  import opened Wrappers
  import opened JsRuntime
  import opened Dsl
  import opened Queries
  import opened Search
  import Boost

  const ExampleConfig := Config(["title", "tags", "author"], ["createdAt", "likes"], ["likes"])

  /** A request with no boost lists and no sort. */
  function Plain(keys: seq<string>, values: map<string, string>, limit: Option<int>, page: Option<int>, or: bool): Params {
    Params(keys, values, limit, page, or, None, None, None, None, None)
  }

  /** Of the keys the examples use, only `title` and `tags` name filters. */
  lemma {:induction false} ExampleKeys()
    ensures IsSearchKey(ExampleConfig, "title") && IsSearchKey(ExampleConfig, "tags")
    ensures !IsSearchKey(ExampleConfig, "limit") && !IsSearchKey(ExampleConfig, "page")
    ensures !IsSearchKey(ExampleConfig, "or")
  {
  }

  /** A text of lower-case letters only. */
  predicate Lower(s: string) {
    forall i :: 0 <= i < |s| ==> 'a' <= s[i] <= 'z'
  }

  /** Such a text has no line terminator and no comma, and is not negated. */
  lemma {:induction false} LowerFacts(s: string)
    requires Lower(s)
    ensures NoLineTerminator(s) && ',' !in s
    ensures !NegatedForm(s)
  {
    if |s| > |NotPrefix| {
      assert s[..|NotPrefix|][0] != NotPrefix[0];
    }
  }

  /** The ways the negation pattern reads the example values. */
  lemma {:induction false} ExampleMatches()
    ensures ExecNotRegex("cat") == Some(NotMatch(false, "cat"))
    ensures ExecNotRegex("{!}cat") == Some(NotMatch(true, "cat"))
    ensures ExecNotRegex("and,a,b") == Some(NotMatch(false, "and,a,b"))
    ensures ExecNotRegex("term") == Some(NotMatch(false, "term"))
    ensures ExecNotRegex("") == None
  {
    assert Lower("cat") && Lower("term");
    LowerFacts("cat");
    LowerFacts("term");
    assert "{!}cat"[|NotPrefix|..] == "cat";
    var s := "and,a,b";
    assert forall i :: 0 <= i < |s| ==> 'a' <= s[i] <= 'z' || s[i] == ',';
    assert s[..|NotPrefix|] != NotPrefix by {
      assert s[..|NotPrefix|][0] == 'a';
    }
  }

  /** A one-key request whose value the pattern reads gives one filter. */
  lemma {:induction false} OneFilter(keys: seq<string>, key: string, value: string, m: NotMatch)
    requires key in ExampleConfig.searchKeys
    requires RecognizedKeys(ExampleConfig, keys) == [key]
    requires ExecNotRegex(value) == Some(m)
    ensures GenerateFilters(ExampleConfig, keys, map[key := value]) == Ok([KeyFilter(key, m.rest, m.negated)])
  {
    var values := map[key := value];
    assert forall k :: k in keys && k in ExampleConfig.searchKeys ==> k == key by {
      forall k | k in keys && k in ExampleConfig.searchKeys
        ensures k == key
      {
        assert k in RecognizedKeys(ExampleConfig, keys);
      }
    }
    assert ValuesReadable(ExampleConfig, keys, values);
    var r := GenerateFilters(ExampleConfig, keys, values);
    assert |r.value| == 1;
    assert r.value == [KeyFilter(key, m.rest, m.negated)];
  }

  /** The advanced envelope of either authentication with the filters in the
      chosen list and the other list empty. */
  lemma {:induction false} ComplexEnvelope(fs: seq<Clause>, occurrence: Occurrence, authenticated: bool)
    ensures GenerateComplexQuery(fs, occurrence, authenticated)
         == Filtered(if authenticated then AuthenticatedBaseQuery() else BaseQuery(),
                     WithOccurrence(BoolFilter([], []), occurrence, fs))
  {
    var q := GenerateComplexQuery(fs, occurrence, authenticated);
    assert q.query == GenerateBaseQuery(authenticated);
  }

  /** A title request with `limit` and `page` among its keys has one filter,
      on the title, whenever the pattern reads its value. */
  lemma {:induction false} TitleFilters(value: string, m: NotMatch)
    requires ExecNotRegex(value) == Some(m)
    ensures GenerateFilters(ExampleConfig, ["title", "limit", "page"], map["title" := value])
         == Ok([KeyFilter("title", m.rest, m.negated)])
    ensures ValuesReadable(ExampleConfig, ["title", "limit", "page"], map["title" := value])
    ensures AnyRecognized(ExampleConfig, ["title", "limit", "page"])
  {
    ExampleKeys();
    assert RecognizedKeys(ExampleConfig, ["title", "limit", "page"]) == ["title"];
    OneFilter(["title", "limit", "page"], "title", value, m);
  }

  /** `{title: "cat", limit: 5, page: 2}`, anonymous: the advanced envelope
      with a match filter on the title in `must`, five results from offset 5. */
  lemma {:induction false} TitleExample()
    ensures Compile(ExampleConfig, Plain(["title", "limit", "page"], map["title" := "cat"], Some(5), Some(2), false), false)
         == Ok(SearchDsl(Filtered(BaseQuery(), BoolFilter([KeyFilter("title", "cat", false)], [])), 5, 5, None))
  {
    var p := Plain(["title", "limit", "page"], map["title" := "cat"], Some(5), Some(2), false);
    ExampleMatches();
    TitleFilters("cat", NotMatch(false, "cat"));
    ComplexEnvelope([KeyFilter("title", "cat", false)], Must, false);
    CompileComplex(ExampleConfig, p, false);
  }

  /** Of `or`, `tags`, `limit` and `page`, only `tags` names a filter. */
  lemma {:induction false} OrKeys()
    ensures RecognizedKeys(ExampleConfig, ["or", "tags", "limit", "page"]) == ["tags"]
  {
    ExampleKeys();
  }

  /** The `or` request's one filter, on `tags`. */
  lemma {:induction false} OrFilters()
    ensures GenerateFilters(ExampleConfig, ["or", "tags", "limit", "page"], map["tags" := "and,a,b"])
         == Ok([KeyFilter("tags", "and,a,b", false)])
    ensures ValuesReadable(ExampleConfig, ["or", "tags", "limit", "page"], map["tags" := "and,a,b"])
    ensures AnyRecognized(ExampleConfig, ["or", "tags", "limit", "page"])
  {
    OrKeys();
    ExampleMatches();
    OneFilter(["or", "tags", "limit", "page"], "tags", "and,a,b", NotMatch(false, "and,a,b"));
  }

  /** `{or: true, tags: "and,a,b"}`: the filter on `tags` goes to `should`,
      and `must` of the outer bool filter stays empty. */
  lemma {:induction false} OrExample()
    ensures Compile(ExampleConfig, Plain(["or", "tags", "limit", "page"], map["tags" := "and,a,b"], None, None, true), false)
         == Ok(SearchDsl(Filtered(BaseQuery(), BoolFilter([], [KeyFilter("tags", "and,a,b", false)])), 10, 0, None))
  {
    var p := Plain(["or", "tags", "limit", "page"], map["tags" := "and,a,b"], None, None, true);
    OrFilters();
    ComplexEnvelope([KeyFilter("tags", "and,a,b", false)], Should, false);
    CompileComplex(ExampleConfig, p, false);
  }

  /** A negated value: "{!}cat" filters on "cat" with negation set. */
  lemma {:induction false} NegatedTitleExample()
    ensures Compile(ExampleConfig, Plain(["title", "limit", "page"], map["title" := "{!}cat"], None, None, false), true)
         == Ok(SearchDsl(Filtered(AuthenticatedBaseQuery(), BoolFilter([KeyFilter("title", "cat", true)], [])), 10, 0, None))
  {
    var p := Plain(["title", "limit", "page"], map["title" := "{!}cat"], None, None, false);
    ExampleMatches();
    TitleFilters("{!}cat", NotMatch(true, "cat"));
    ComplexEnvelope([KeyFilter("title", "cat", true)], Must, true);
    CompileComplex(ExampleConfig, p, true);
  }

  /** An empty filter value makes the negation match null, which throws. */
  lemma {:induction false} EmptyValueExample()
    ensures Compile(ExampleConfig, Plain(["title", "limit", "page"], map["title" := ""], None, None, false), false).Err?
  {
    var p := Plain(["title", "limit", "page"], map["title" := ""], None, None, false);
    ExampleKeys();
    ExampleMatches();
    assert "title" in p.keys;
    assert !ValuesReadable(ExampleConfig, p.keys, p.values);
  }

  /** The keys of the boost request below, in the order a client sends them;
      `limit` and `page` are always among them. */
  const BoostKeys := ["boostFilterTypes", "boostFilterFields", "boostFilterValues", "boostScoringValues", "limit", "page"]

  /** No key longer than six characters names a filter. */
  lemma {:induction false} LongKeyNotSearched(k: string)
    requires |k| > 6
    ensures k !in ExampleConfig.searchKeys
  {
  }

  /** No boost key names a filter. */
  lemma {:induction false} BoostKeysNotSearched()
    ensures !AnyRecognized(ExampleConfig, BoostKeys)
  {
    LongKeyNotSearched("boostFilterTypes");
    LongKeyNotSearched("boostFilterFields");
    LongKeyNotSearched("boostFilterValues");
    LongKeyNotSearched("boostScoringValues");
    ExampleKeys();
  }

  /** The boost request `{boostFilterTypes: "term", boostFilterFields: "author",
      boostFilterValues: "alice", boostScoringValues: "likes"}`. */
  const BoostRequest := Params(BoostKeys, map[], None, None, false, Some("term"), Some("author"), Some("alice"), Some("likes"), None)

  /** The one scoring function that request asks for: a term filter on the
      author, scored by a script over the make's likes. */
  const LikesFunction := ScoreFunction(
    SearchFilter("term", map["author" := Text("alice")], false),
    Some(Script("js", "_score * (doc['likes._id'].values.length + 1)")),
    None)

  /** The settings of the one boost entry. */
  const LikesSettings := Boost.BoostSettings("term", "author", "alice", Some("likes"))

  /** Its scoring function, part by part. */
  lemma {:induction false} LikesFilterParts()
    ensures Boost.Filter(LikesSettings, false).filter == LikesFunction.filter
    ensures Boost.Filter(LikesSettings, false).boostFactor == None
  {
  }

  /** The script text for `likes`, put together. */
  lemma {:induction false} LikesScriptText()
    ensures Boost.ScriptBoostPrefix + "likes" + Boost.ScriptBoostSuffix == "_score * (doc['likes._id'].values.length + 1)"
  {
  }

  /** The script part of the generated function. */
  lemma {:induction false} LikesScript()
    ensures Boost.Filter(LikesSettings, false).scriptScore == LikesFunction.scriptScore
  {
    LikesScriptText();
  }

  /** The boost generator turns the one entry into that function. */
  lemma {:induction false} LikesFilter()
    ensures Boost.Filter(LikesSettings, false) == LikesFunction
  {
    LikesFilterParts();
    LikesScript();
  }

  /** The one kept index of the split boost lists gives that function. */
  lemma {:induction false} LikesBoostFilters()
    ensures BoostFiltersFrom(["term"], ["author"], ["alice"], ["likes"], 0) == Ok([LikesFunction])
  {
    ExampleMatches();
    LikesFilter();
    assert KeptAt(["author"], ["alice"], 0);
    assert KeptIndices(["term"], ["author"], ["alice"], 0) == [0];
    assert TypesReadable(["term"], ["author"], ["alice"], 0);
    assert BoostAt(["term"], ["author"], ["alice"], ["likes"], 0) == LikesFunction by {
      assert At(["likes"], 0) == Some("likes");
      assert Boost.BoostSettings("term", "author", "alice", Some("likes")) == LikesSettings;
    }
    var r := BoostFiltersFrom(["term"], ["author"], ["alice"], ["likes"], 0);
    BoostFiltersFromAt(["term"], ["author"], ["alice"], ["likes"], 0, 0);
    assert |r.value| == 1 && r.value[0] == LikesFunction;
    assert r.value == [LikesFunction];
  }

  /** Boost lists of one comma-free entry each give the functions for that
      one entry. */
  lemma {:induction false} SingleBoostLists(p: Params, t: string, f: string, v: string, b: string)
    requires p.boostFilterTypes == Some(t) && p.boostFilterFields == Some(f)
    requires p.boostFilterValues == Some(v) && p.boostScoringValues == Some(b)
    requires t != "" && f != "" && v != "" && b != ""
    requires ',' !in t && ',' !in f && ',' !in v && ',' !in b
    ensures HasBoost(p)
    ensures BoostFiltersOf(p) == BoostFiltersFrom([t], [f], [v], [b], 0)
  {
    SplitWithout(t, ',');
    SplitWithout(f, ',');
    SplitWithout(v, ',');
    SplitWithout(b, ',');
  }

  /** The request's four lists each split into one entry. */
  lemma {:induction false} BoostRequestLists()
    ensures HasBoost(BoostRequest)
    ensures BoostFiltersOf(BoostRequest) == BoostFiltersFrom(["term"], ["author"], ["alice"], ["likes"], 0)
  {
    assert Lower("term") && Lower("author") && Lower("alice") && Lower("likes");
    LowerFacts("term");
    LowerFacts("author");
    LowerFacts("alice");
    LowerFacts("likes");
    SingleBoostLists(BoostRequest, "term", "author", "alice", "likes");
  }

  lemma {:induction false} BoostRequestFilters()
    ensures HasBoost(BoostRequest)
    ensures BoostFiltersOf(BoostRequest) == Ok([LikesFunction])
  {
    BoostRequestLists();
    LikesBoostFilters();
  }

  /** As written, that request throws: it is boosted but not complex, and the
      branch for it calls a function that is never defined. */
  lemma {:induction false} BoostExampleAsWritten()
    ensures Compile(ExampleConfig, BoostRequest, false) == Err(ReferenceError("generateBaseBoostQuery"))
  {
    BoostRequestFilters();
    BoostKeysNotSearched();
    assert !IsComplex(ExampleConfig, BoostRequest);
    BoostedBaseQueryUndefined(ExampleConfig, BoostRequest, false);
  }

  /** With line 162 building the boosted base query, the request gives the
      base envelope under a `function_score` with that one script-scored
      function. */
  lemma {:induction false} BoostExampleIntended()
    ensures CompileIntended(ExampleConfig, BoostRequest, false)
         == Ok(SearchDsl(FunctionScore([LikesFunction], "sum", BaseQuery()), 10, 0, None))
  {
    BoostRequestFilters();
    BoostKeysNotSearched();
    assert !IsComplex(ExampleConfig, BoostRequest);
    var r := CompileIntended(ExampleConfig, BoostRequest, false);
    assert r.Ok?;
    assert r.value.query == GenerateBaseBoostQuery([LikesFunction], false);
  }

  /** Filtering a list is filtering its head, then its tail. */
  lemma {:induction false} ValidPairsCons(cfg: Config, x: SortItem, rest: seq<SortItem>)
    ensures ValidPairs(cfg, [x] + rest) == (if ValidSortPair(cfg, x) then [x.text] else []) + ValidPairs(cfg, rest)
  {
    assert ([x] + rest)[1..] == rest;
  }

  /** Of four items, the first and the last survive. */
  lemma {:induction false} KeepFirstAndLast(cfg: Config, a: SortItem, b: SortItem, c: SortItem, d: SortItem)
    requires ValidSortPair(cfg, a) && !ValidSortPair(cfg, b) && !ValidSortPair(cfg, c) && ValidSortPair(cfg, d)
    ensures ValidPairs(cfg, [a, b, c, d]) == [a.text, d.text]
  {
    var s3 := [d] + [];
    ValidPairsCons(cfg, d, []);
    var s2 := [c] + s3;
    ValidPairsCons(cfg, c, s3);
    var s1 := [b] + s2;
    ValidPairsCons(cfg, b, s2);
    ValidPairsCons(cfg, a, s1);
    assert [a, b, c, d] == [a] + s1;
  }

  const SortItems := [PairText("createdAt,desc"), PairText("bogus,asc"), NotText, PairText("likes")]

  /** Which of the example's sort items pass the filter. */
  lemma {:induction false} CreatedAtDescSortable()
    ensures ValidSortPair(ExampleConfig, PairText("createdAt,desc"))
    ensures SortClauseFor(ExampleConfig, "createdAt,desc") == RegularSort("createdAt", Some("desc"))
  {
    assert ',' !in "createdAt" && ',' !in "desc";
    SortPairClause(ExampleConfig, "createdAt,desc", "createdAt", "desc");
  }

  lemma {:induction false} BogusAscNotSortable()
    ensures !ValidSortPair(ExampleConfig, PairText("bogus,asc"))
  {
    assert ',' !in "bogus" && ',' !in "asc";
    SortPairClause(ExampleConfig, "bogus,asc", "bogus", "asc");
  }

  lemma {:induction false} LikesSortable()
    ensures ValidSortPair(ExampleConfig, PairText("likes"))
    ensures SortClauseFor(ExampleConfig, "likes") == ScriptSort("likes", None)
  {
    assert ',' !in "likes";
    SortWordClause(ExampleConfig, "likes");
  }

  lemma {:induction false} SortSurvivors()
    ensures ValidPairs(ExampleConfig, SortItems) == ["createdAt,desc", "likes"]
  {
    CreatedAtDescSortable();
    BogusAscNotSortable();
    LikesSortable();
    KeepFirstAndLast(ExampleConfig, PairText("createdAt,desc"), PairText("bogus,asc"), NotText, PairText("likes"));
  }

  /** Two surviving pairs give two sort clauses, in their order. */
  lemma {:induction false} TwoSortClauses(cfg: Config, sort: SortParam, x: string, y: string)
    requires ValidPairs(cfg, SortCandidates(sort)) == [x, y]
    ensures GenerateSort(cfg, Some(sort)) == Some([SortClauseFor(cfg, x), SortClauseFor(cfg, y)])
  {
    var r := GenerateSort(cfg, Some(sort));
    assert |r.value| == 2;
    assert r.value == [SortClauseFor(cfg, x), SortClauseFor(cfg, y)];
  }

  /** Sort pairs: an unknown field and a non-string are dropped, the
      survivors keep their order, `likes` gets a script sort, and a pair
      without a comma has no order. */
  lemma {:induction false} SortExample()
    ensures GenerateSort(ExampleConfig, Some(SortList(SortItems)))
         == Some([RegularSort("createdAt", Some("desc")), ScriptSort("likes", None)])
  {
    SortSurvivors();
    CreatedAtDescSortable();
    LikesSortable();
    TwoSortClauses(ExampleConfig, SortList(SortItems), "createdAt,desc", "likes");
  }
}

=== FILE: jsruntime.dfy ===
/** The JavaScript built-ins the query builder leans on, written out so that
    their edge cases are explicit: `Array.prototype.indexOf`, array indexing past
    the end, truthiness of strings, `String.prototype.split` with a one-character
    separator, `String.prototype.trim`, `String.prototype.replace` with a string
    pattern, and `parseInt(s, 10)`. */
module JsRuntime {
  import opened Wrappers

  /** ECMAScript LineTerminator code points; a regular-expression `.` does not match them. */
  predicate IsLineTerminator(c: char) {
    c == '\n' || c == '\r' || c == '\U{2028}' || c == '\U{2029}'
  }

  /** ECMAScript WhiteSpace and LineTerminator code points: what `trim` removes
      and what `parseInt` skips before the number. */
  predicate IsWhiteSpace(c: char) {
    || c == '\t' || c == '\U{000B}' || c == '\U{000C}' || c == ' '
    || c == '\U{00A0}' || c == '\U{FEFF}' || c == '\U{1680}'
    || ('\U{2000}' <= c <= '\U{200A}')
    || c == '\U{202F}' || c == '\U{205F}' || c == '\U{3000}'
    || IsLineTerminator(c)
  }

  predicate AllWhiteSpace(s: string) {
    forall i :: 0 <= i < |s| ==> IsWhiteSpace(s[i])
  }

  /** A string with no white space at either end: the shape `trim` produces. */
  predicate Trimmed(s: string) {
    |s| > 0 ==> !IsWhiteSpace(s[0]) && !IsWhiteSpace(s[|s| - 1])
  }

  /** JavaScript truthiness of a string that may be `undefined`: both
      `undefined` and "" are falsy. */
  predicate Truthy(s: Option<string>) {
    s.Some? && s.value != ""
  }

  /** The one property name whose assignment on a plain object does not
      create an own property: it runs the `Object.prototype.__proto__` setter,
      which ignores any value that is not an object. */
  const ProtoKey := "__proto__"

  /** Array element access, `undefined` past the end. */
  function At<T>(xs: seq<T>, i: nat): Option<T> {
    if i < |xs| then Some(xs[i]) else None
  }

  /** `Array.prototype.indexOf`: the position of the first element equal to
      `x`, or -1 when there is none. */
  function IndexOf<T(==)>(xs: seq<T>, x: T): (r: int)
    ensures r == -1 <==> x !in xs
    ensures r != -1 ==> 0 <= r < |xs| && xs[r] == x && x !in xs[..r]
  {
    if |xs| == 0 then -1
    else if xs[0] == x then 0
    else
      var k := IndexOf(xs[1..], x);
      if k == -1 then -1
      else
        assert xs[..k + 1] == [xs[0]] + xs[1..][..k];
        k + 1
  }

  /** The inverse of `Split`: the parts glued back together with `sep`. */
  function Join(parts: seq<string>, sep: char): string
    decreases |parts|
  {
    if |parts| == 0 then ""
    else if |parts| == 1 then parts[0]
    else parts[0] + [sep] + Join(parts[1..], sep)
  }

  /** Joining one more separator-free part in front. */
  lemma {:induction false} JoinCons(head: string, rest: seq<string>, sep: char)
    requires |rest| >= 1 && sep !in head
    requires forall i :: 0 <= i < |rest| ==> sep !in rest[i]
    ensures |[head] + rest| >= 1
    ensures forall i :: 0 <= i < |[head] + rest| ==> sep !in ([head] + rest)[i]
    ensures Join([head] + rest, sep) == head + [sep] + Join(rest, sep)
  {
    var parts := [head] + rest;
    assert parts[1..] == rest;
    assert forall i :: 1 <= i < |parts| ==> parts[i] == rest[i - 1];
  }

  /** `String.prototype.split` with a one-character separator: the text
      between consecutive separators, so "" splits into [""] and "a,,b" into
      ["a", "", "b"]. */
  function Split(s: string, sep: char): (parts: seq<string>)
    ensures |parts| >= 1
    ensures forall i :: 0 <= i < |parts| ==> sep !in parts[i]
    ensures Join(parts, sep) == s
    decreases |s|
  {
    var k := IndexOf(s, sep);
    if k == -1 then [s]
    else
      var head := s[..k];
      var rest := Split(s[k + 1..], sep);
      JoinCons(head, rest, sep);
      assert s == head + [sep] + s[k + 1..];
      [head] + rest
  }

  /** The first two parts of a join, read off the joined text: one part is
      the whole text; otherwise the first part is followed by the separator,
      and the second part runs up to the next separator or to the end. */
  lemma {:induction false} JoinHead(parts: seq<string>, sep: char)
    requires |parts| >= 1 && forall i :: 0 <= i < |parts| ==> sep !in parts[i]
    ensures var s := Join(parts, sep);
      && (|parts| == 1 <==> sep !in s)
      && (|parts| == 1 ==> parts[0] == s)
      && (|parts| > 1 ==> parts[0] + [sep] <= s)
      && (|parts| == 2 ==> parts[0] + [sep] + parts[1] == s)
      && (|parts| > 2 ==> parts[0] + [sep] + parts[1] + [sep] <= s)
  {
    var s := Join(parts, sep);
    if |parts| > 1 {
      assert s == parts[0] + [sep] + Join(parts[1..], sep);
      if |parts| == 2 {
        assert Join(parts[1..], sep) == parts[1];
      } else {
        var tail := Join(parts[1..][1..], sep);
        assert Join(parts[1..], sep) == parts[1] + [sep] + tail;
        assert s == (parts[0] + [sep] + parts[1] + [sep]) + tail;
      }
      assert s[|parts[0]|] == sep;
    }
  }

  /** The same facts for a split, whose parts join back to the text. */
  lemma {:induction false} SplitHead(s: string, sep: char)
    ensures var parts := Split(s, sep);
      && (|parts| == 1 <==> sep !in s)
      && (|parts| == 1 ==> parts[0] == s)
      && (|parts| > 1 ==> parts[0] + [sep] <= s)
      && (|parts| == 2 ==> parts[0] + [sep] + parts[1] == s)
      && (|parts| > 2 ==> parts[0] + [sep] + parts[1] + [sep] <= s)
  {
    JoinHead(Split(s, sep), sep);
  }

  /** Splitting undoes joining whenever no part contains the separator. */
  lemma {:induction false} SplitJoin(parts: seq<string>, sep: char)
    requires |parts| >= 1
    requires forall i :: 0 <= i < |parts| ==> sep !in parts[i]
    ensures Split(Join(parts, sep), sep) == parts
    decreases |parts|
  {
    if |parts| > 1 {
      var head, tail := parts[0], Join(parts[1..], sep);
      var s := head + [sep] + tail;
      assert Join(parts, sep) == s;
      var k := IndexOf(s, sep);
      assert s[|head|] == sep;
      assert forall j :: 0 <= j < |head| ==> s[j] == head[j];
      assert forall j :: 0 <= j < k ==> s[j] == s[..k][j];
      assert k == |head|;
      assert s[..k] == head;
      assert s[k + 1..] == tail;
      SplitJoin(parts[1..], sep);
      assert parts == [head] + parts[1..];
    }
  }

  /** A text without the separator splits into itself. */
  lemma {:induction false} SplitWithout(s: string, sep: char)
    requires sep !in s
    ensures Split(s, sep) == [s]
  {
  }

  /** Two separator-free texts joined by one separator split back into the two. */
  lemma {:induction false} SplitTwo(s: string, sep: char, a: string, b: string)
    requires sep !in a && sep !in b && s == a + [sep] + b
    ensures Split(s, sep) == [a, b]
  {
    assert Join([a, b], sep) == s;
    SplitJoin([a, b], sep);
  }

  /** The number of white-space characters that open `s`. */
  function LeadingWhiteSpace(s: string): (n: nat)
    ensures n <= |s|
    ensures AllWhiteSpace(s[..n])
    ensures n < |s| ==> !IsWhiteSpace(s[n])
  {
    if |s| > 0 && IsWhiteSpace(s[0]) then
      var n := 1 + LeadingWhiteSpace(s[1..]);
      assert s[..n] == [s[0]] + s[1..][..n - 1];
      n
    else 0
  }

  /** The number of white-space characters that close `s`. */
  function TrailingWhiteSpace(s: string): (n: nat)
    ensures n <= |s|
    ensures AllWhiteSpace(s[|s| - n..])
    ensures n < |s| ==> !IsWhiteSpace(s[|s| - n - 1])
  {
    if |s| > 0 && IsWhiteSpace(s[|s| - 1]) then
      var n := 1 + TrailingWhiteSpace(s[..|s| - 1]);
      assert s[|s| - n..] == s[..|s| - 1][|s| - n..] + [s[|s| - 1]];
      n
    else 0
  }

  /** Two white-space prefixes each followed by a non-white-space character
      (or the end) have the same length. */
  lemma {:induction false} WhiteSpacePrefixUnique(s: string, m: nat, n: nat)
    requires m <= |s| && AllWhiteSpace(s[..m]) && (m < |s| ==> !IsWhiteSpace(s[m]))
    requires n <= |s| && AllWhiteSpace(s[..n]) && (n < |s| ==> !IsWhiteSpace(s[n]))
    ensures m == n
  {
    assert forall j :: 0 <= j < n ==> s[j] == s[..n][j];
    assert forall j :: 0 <= j < m ==> s[j] == s[..m][j];
  }

  /** Two white-space suffixes each preceded by a non-white-space character
      (or the start) have the same length. */
  lemma {:induction false} WhiteSpaceSuffixUnique(s: string, m: nat, n: nat)
    requires m <= |s| && AllWhiteSpace(s[|s| - m..]) && (m < |s| ==> !IsWhiteSpace(s[|s| - m - 1]))
    requires n <= |s| && AllWhiteSpace(s[|s| - n..]) && (n < |s| ==> !IsWhiteSpace(s[|s| - n - 1]))
    ensures m == n
  {
    assert forall j :: |s| - n <= j < |s| ==> s[j] == s[|s| - n..][j - (|s| - n)];
    assert forall j :: |s| - m <= j < |s| ==> s[j] == s[|s| - m..][j - (|s| - m)];
  }

  /** The white-space count that opens `s` is the only one with its two properties. */
  lemma {:induction false} LeadingWhiteSpaceUnique(s: string, n: nat)
    requires n <= |s| && AllWhiteSpace(s[..n])
    requires n < |s| ==> !IsWhiteSpace(s[n])
    ensures LeadingWhiteSpace(s) == n
  {
    WhiteSpacePrefixUnique(s, LeadingWhiteSpace(s), n);
  }

  /** The white-space count that closes `s` is the only one with its two properties. */
  lemma {:induction false} TrailingWhiteSpaceUnique(s: string, n: nat)
    requires n <= |s| && AllWhiteSpace(s[|s| - n..])
    requires n < |s| ==> !IsWhiteSpace(s[|s| - n - 1])
    ensures TrailingWhiteSpace(s) == n
  {
    WhiteSpaceSuffixUnique(s, TrailingWhiteSpace(s), n);
  }

  /** `String.prototype.trim`: the result is a slice of `s` with nothing but
      white space before and after it, and no white space at its own ends. */
  function Trim(s: string): (r: string)
    ensures Trimmed(r)
    ensures var i := LeadingWhiteSpace(s);
      i + |r| <= |s| && r == s[i..i + |r|] && AllWhiteSpace(s[i + |r|..])
  {
    var i := LeadingWhiteSpace(s);
    var t := s[i..];
    var n := TrailingWhiteSpace(t);
    var r := t[..|t| - n];
    assert |r| > 0 ==> r[0] == s[i] && r[|r| - 1] == t[|t| - n - 1];
    assert s[i + |r|..] == t[|t| - n..];
    r
  }

  /** Trimming is determined by the content: white space around a trimmed
      core is exactly what is removed. */
  lemma {:induction false} TrimOfPadded(a: string, c: string, b: string)
    requires AllWhiteSpace(a) && AllWhiteSpace(b) && Trimmed(c)
    ensures Trim(a + c + b) == c
  {
    var s := a + c + b;
    if |c| == 0 {
      assert s == a + b;
      LeadingWhiteSpaceUnique(s, |s|);
      assert s[|s|..] == [];
    } else {
      assert s[..|a|] == a;
      assert s[|a|] == c[0];
      LeadingWhiteSpaceUnique(s, |a|);
      var t := s[|a|..];
      assert t == c + b;
      assert t[|t| - |b|..] == b;
      assert t[|t| - |b| - 1] == c[|c| - 1];
      TrailingWhiteSpaceUnique(t, |b|);
      assert t[..|t| - |b|] == c;
    }
  }

  /** `s` holds `pat` starting at position `j`. */
  predicate OccursAt(s: string, pat: string, j: int) {
    0 <= j && j + |pat| <= |s| && s[j..j + |pat|] == pat
  }

  /** The first position at or after `from` where `pat` occurs in `s`. */
  function FindFrom(s: string, pat: string, from: nat): (r: Option<nat>)
    requires from <= |s|
    ensures r.Some? ==> from <= r.value && OccursAt(s, pat, r.value)
    ensures r.Some? ==> forall j :: from <= j < r.value ==> !OccursAt(s, pat, j)
    ensures r.None? ==> forall j :: from <= j ==> !OccursAt(s, pat, j)
    decreases |s| - from
  {
    if from + |pat| > |s| then None
    else if s[from..from + |pat|] == pat then Some(from)
    else if from == |s| then None
    else FindFrom(s, pat, from + 1)
  }

  /** `String.prototype.replace` with a string pattern: only the first
      occurrence of `pat` is replaced; no occurrence leaves `s` as it is. */
  function ReplaceFirst(s: string, pat: string, rep: string): string {
    match FindFrom(s, pat, 0)
    case None => s
    case Some(i) => s[..i] + rep + s[i + |pat|..]
  }

  /** A template whose placeholder is the first place its opening character
      appears has exactly that placeholder replaced. */
  lemma {:induction false} ReplaceFirstPlaceholder(pre: string, pat: string, post: string, rep: string)
    requires |pat| > 0 && pat[0] !in pre
    ensures ReplaceFirst(pre + pat + post, pat, rep) == pre + rep + post
  {
    var s := pre + pat + post;
    assert OccursAt(s, pat, |pre|) by {
      assert s[|pre|..|pre| + |pat|] == pat;
    }
    forall j | 0 <= j < |pre|
      ensures !OccursAt(s, pat, j)
    {
      assert s[j] == pre[j];
    }
    var r := FindFrom(s, pat, 0);
    assert r == Some(|pre|);
    assert s[..|pre|] == pre;
    assert s[|pre| + |pat|..] == post;
  }

  predicate IsDigit(c: char) {
    '0' <= c <= '9'
  }

  predicate AllDigits(s: string) {
    forall i :: 0 <= i < |s| ==> IsDigit(s[i])
  }

  /** The number of decimal digits that open `s`. */
  function DigitPrefix(s: string): (n: nat)
    ensures n <= |s| && AllDigits(s[..n])
    ensures n < |s| ==> !IsDigit(s[n])
  {
    if |s| > 0 && IsDigit(s[0]) then
      var n := 1 + DigitPrefix(s[1..]);
      assert s[..n] == [s[0]] + s[1..][..n - 1];
      n
    else 0
  }

  /** The digit-run length that opens `s` is the only one with its two properties. */
  lemma {:induction false} DigitPrefixUnique(s: string, n: nat)
    requires n <= |s| && AllDigits(s[..n])
    requires n < |s| ==> !IsDigit(s[n])
    ensures DigitPrefix(s) == n
  {
  }

  function DigitValue(c: char): nat
    requires IsDigit(c)
  {
    c as int - '0' as int
  }

  /** The value of a run of decimal digits, most significant first. */
  function DigitsValue(ds: string): nat
    requires AllDigits(ds)
  {
    if |ds| == 0 then 0
    else DigitsValue(ds[..|ds| - 1]) * 10 + DigitValue(ds[|ds| - 1])
  }

  function Digit(d: nat): (c: char)
    requires d < 10
    ensures IsDigit(c) && DigitValue(c) == d
  {
    ('0' as int + d) as char
  }

  /** The decimal rendering of a natural number, without leading zeros. */
  function NaturalDigits(n: nat): (s: string)
    ensures |s| >= 1 && AllDigits(s)
    ensures DigitsValue(s) == n
  {
    if n < 10 then [Digit(n)]
    else
      var s := NaturalDigits(n / 10) + [Digit(n % 10)];
      assert s[..|s| - 1] == NaturalDigits(n / 10);
      s
  }

  /** The decimal rendering of an integer, with a leading "-" when negative. */
  function Decimal(n: int): string {
    if n < 0 then "-" + NaturalDigits(-n) else NaturalDigits(n)
  }

  /** `parseInt(s, 10)`: skip leading white space, read an optional sign, then
      the longest run of decimal digits; NaN (`None`) when that run is empty.
      Whatever follows the digits is ignored. */
  function ParseInt(s: string): Option<int> {
    var t := s[LeadingWhiteSpace(s)..];
    var negative := |t| > 0 && t[0] == '-';
    var u := if |t| > 0 && (t[0] == '-' || t[0] == '+') then t[1..] else t;
    var n := DigitPrefix(u);
    if n == 0 then None
    else
      var magnitude: int := DigitsValue(u[..n]);
      Some(if negative then -magnitude else magnitude)
  }

  /** `parseInt` reads back any integer rendered in decimal, whatever white
      space precedes it and whatever non-digit text follows it. */
  lemma {:induction false} ParseIntDecimal(n: int, pad: string, rest: string)
    requires AllWhiteSpace(pad)
    requires |rest| > 0 ==> !IsDigit(rest[0])
    ensures ParseInt(pad + Decimal(n) + rest) == Some(n)
  {
    var d := Decimal(n);
    var s := pad + d + rest;
    var digits := NaturalDigits(if n < 0 then -n else n);
    assert d[0] == '-' || IsDigit(d[0]);
    assert s[..|pad|] == pad;
    assert s[|pad|] == d[0];
    LeadingWhiteSpaceUnique(s, |pad|);
    var t := s[|pad|..];
    assert t == d + rest;
    var u := if |t| > 0 && (t[0] == '-' || t[0] == '+') then t[1..] else t;
    assert u == digits + rest;
    assert u[..|digits|] == digits;
    DigitPrefixUnique(u, |digits|);
  }

  /** Text with no decimal digit at all parses to NaN. */
  lemma {:induction false} ParseIntNoDigits(s: string)
    requires forall i :: 0 <= i < |s| ==> !IsDigit(s[i])
    ensures ParseInt(s) == None
  {
    var t := s[LeadingWhiteSpace(s)..];
    var u := if |t| > 0 && (t[0] == '-' || t[0] == '+') then t[1..] else t;
    assert |u| > 0 ==> u[0] in s;
  }
}

=== FILE: queries.dfy ===
/** The eight query envelopes of `generators/queries.js`: base or advanced,
    unboosted or boosted, anonymous or authenticated. Each is a fixed tree;
    an authenticated envelope is its anonymous twin with the `published: true`
    term taken out of the innermost `must`, done in the source by
    `must.splice(1, 1)` on that list. */
module Queries {
  import opened Dsl

  /** `{missing: {field: "deletedAt", null_value: true}}`: the make is not deleted. */
  const DeletedAtMissing := Missing("deletedAt", true)

  /** `{term: {published: true}}`: the make is published. */
  const PublishedTerm := Term("published", true)

  /** The score mode of every boosted envelope. */
  const ScoreModeSum := "sum"

  /** The filtered query inside a boosted envelope, or the envelope itself. */
  function Body(q: Query): Query {
    if q.FunctionScore? then q.query else q
  }

  /** The number of `filtered` layers above `match_all`. */
  function Depth(q: Query): nat {
    match q
    case MatchAll => 0
    case Filtered(inner, _) => 1 + Depth(inner)
    case FunctionScore(_, _, inner) => Depth(inner)
  }

  /** The bool filter of the innermost `filtered` layer, next to `match_all`. */
  function Core(q: Query): BoolFilter {
    match q
    case MatchAll => BoolFilter([], [])
    case Filtered(inner, b) => if inner.MatchAll? then b else Core(inner)
    case FunctionScore(_, _, inner) => Core(inner)
  }

  /** Some `must` list of the tree holds the `published: true` term. */
  predicate HasPublished(q: Query) {
    match q
    case MatchAll => false
    case Filtered(inner, b) => PublishedTerm in b.must || HasPublished(inner)
    case FunctionScore(_, _, inner) => HasPublished(inner)
  }

  /** `cs` without any copy of `c`. */
  function Without(cs: seq<Clause>, c: Clause): (r: seq<Clause>)
    ensures forall x :: x in r <==> x in cs && x != c
  {
    if |cs| == 0 then []
    else if cs[0] == c then Without(cs[1..], c)
    else [cs[0]] + Without(cs[1..], c)
  }

  /** A reference for the authenticated envelopes: the same tree with the
      `published: true` term dropped from every `must` list. */
  function StripPublished(q: Query): (r: Query)
    ensures !HasPublished(r)
    ensures Depth(r) == Depth(q)
  {
    match q
    case MatchAll => MatchAll
    case Filtered(inner, b) => Filtered(StripPublished(inner), b.(must := Without(b.must, PublishedTerm)))
    case FunctionScore(fs, mode, inner) => FunctionScore(fs, mode, StripPublished(inner))
  }

  /** `must.splice(1, 1)` on the bool filter of a `filtered` layer. */
  function SpliceSecondMust(q: Query): Query
    requires q.Filtered?
  {
    var must := q.filter.must;
    Filtered(q.query, q.filter.(must := if |must| > 1 then must[..1] + must[2..] else must))
  }

  /** `baseQuery`: `match_all`, kept to makes that are not deleted and are
      published; nothing in `should`. */
  function BaseQuery(): (q: Query)
    ensures Depth(q) == 1 && Body(q) == q && q.query == MatchAll
    ensures Core(q) == BoolFilter([DeletedAtMissing, PublishedTerm], [])
    ensures HasPublished(q)
  {
    Filtered(MatchAll, BoolFilter([DeletedAtMissing, PublishedTerm], []))
  }

  /** `advancedQuery`: an empty outer bool filter, ready for per-field
      filters, around the base query. */
  function AdvancedQuery(): (q: Query)
    ensures Depth(q) == 2 && Body(q) == q
    ensures q.filter == BoolFilter([], []) && q.query == BaseQuery()
    ensures Core(q) == Core(BaseQuery()) && HasPublished(q)
  {
    Filtered(BaseQuery(), BoolFilter([], []))
  }

  /** Dropping the published term from the base `must` leaves the
      not-deleted filter alone. */
  lemma {:induction false} BaseMustStripped()
    ensures Without([DeletedAtMissing, PublishedTerm], PublishedTerm) == [DeletedAtMissing]
  {
    var must := [DeletedAtMissing, PublishedTerm];
    assert must[1..] == [PublishedTerm] && must[1..][1..] == [];
    assert Without(must[1..], PublishedTerm) == [];
  }

  /** `authenticatedBaseQuery`: the base query without the published term,
      which leaves only the not-deleted filter. */
  function AuthenticatedBaseQuery(): (q: Query)
    ensures q == StripPublished(BaseQuery())
    ensures Core(q) == BoolFilter([DeletedAtMissing], [])
  {
    BaseMustStripped();
    SpliceSecondMust(BaseQuery())
  }

  /** `authenticatedAdvancedQuery`: the published term is removed from the
      inner `must` only; the outer bool filter is untouched. */
  function AuthenticatedAdvancedQuery(): (q: Query)
    ensures q == StripPublished(AdvancedQuery())
    ensures q.filter == AdvancedQuery().filter
    ensures q.query == AuthenticatedBaseQuery()
  {
    var a := AdvancedQuery();
    Filtered(SpliceSecondMust(a.query), a.filter)
  }

  /** `baseBoostQuery`: the base query under a `function_score` with no
      functions yet and `score_mode: "sum"`. */
  function BaseBoostQuery(): (q: Query)
    ensures q.FunctionScore? && q.functions == [] && q.scoreMode == ScoreModeSum
    ensures Body(q) == BaseQuery()
  {
    FunctionScore([], ScoreModeSum, BaseQuery())
  }

  /** `advancedBoostQuery`: the advanced query under a `function_score` with
      no functions yet and `score_mode: "sum"`. */
  function AdvancedBoostQuery(): (q: Query)
    ensures q.FunctionScore? && q.functions == [] && q.scoreMode == ScoreModeSum
    ensures Body(q) == AdvancedQuery()
  {
    FunctionScore([], ScoreModeSum, AdvancedQuery())
  }

  /** `authenticatedBaseBoostQuery`: the base boost query with the published
      term removed from the innermost `must`. */
  function AuthenticatedBaseBoostQuery(): (q: Query)
    ensures q == StripPublished(BaseBoostQuery())
    ensures q.FunctionScore? && q.functions == [] && q.scoreMode == ScoreModeSum
    ensures Body(q) == AuthenticatedBaseQuery()
  {
    var b := BaseBoostQuery();
    assert StripPublished(b) == FunctionScore([], ScoreModeSum, AuthenticatedBaseQuery());
    FunctionScore(b.functions, b.scoreMode, SpliceSecondMust(b.query))
  }

  /** `authenticatedAdvancedBoostQuery`: the advanced boost query with the
      published term removed from the innermost `must`. */
  function AuthenticatedAdvancedBoostQuery(): (q: Query)
    ensures q == StripPublished(AdvancedBoostQuery())
    ensures q.FunctionScore? && q.functions == [] && q.scoreMode == ScoreModeSum
    ensures Body(q) == AuthenticatedAdvancedQuery()
  {
    var b := AdvancedBoostQuery();
    var a := b.query;
    assert StripPublished(b) == FunctionScore([], ScoreModeSum, AuthenticatedAdvancedQuery());
    FunctionScore(b.functions, b.scoreMode, Filtered(SpliceSecondMust(a.query), a.filter))
  }

  /** Every envelope keeps deleted makes out: its innermost `must` opens with
      the not-deleted filter, and only the anonymous ones also require the
      published term. */
  lemma {:induction false} EnvelopesExcludeDeleted()
    ensures forall q :: q in {BaseQuery(), AdvancedQuery(), BaseBoostQuery(), AdvancedBoostQuery()} ==>
      Core(q).must == [DeletedAtMissing, PublishedTerm] && HasPublished(q)
    ensures forall q :: q in {AuthenticatedBaseQuery(), AuthenticatedAdvancedQuery(),
                              AuthenticatedBaseBoostQuery(), AuthenticatedAdvancedBoostQuery()} ==>
      Core(q).must == [DeletedAtMissing] && !HasPublished(q)
  {
  }
}

=== FILE: search.dfy ===
/** `queryTypes/search.js`: the compiler from a flat parameter map to a query
    envelope, up to and including the sort step (lines 132-193).

    The compiler picks `should` when `or` is set and `must` otherwise; calls
    the request complex when some key is a recognised search key and boosted
    when the three boost lists are all present; picks one of the envelopes of
    `Queries` from those two facts and the authentication flag; fills the
    outer bool filter and the scoring functions; normalises `size` and `from`;
    and keeps the valid sort pairs. */
module Search {
  import opened Wrappers
  import opened JsRuntime
  import opened Dsl
  import opened Queries
  import Boost

  /** `DEFAULT_SEARCH_SIZE` and `MAX_SEARCH_SIZE` */
  const DefaultSearchSize := 10
  const MaxSearchSize := 1000

  /** The prefix that negates a filter value or a boost filter type. */
  const NotPrefix := "{!}"

  // ---------------------------------------------------------------------------
  // Validators (lines 26-48)

  /** `validateSize(size)`: `size && isFinite(size) ? size : DEFAULT_SEARCH_SIZE`,
      then clamped to [1, MAX_SEARCH_SIZE]. `None` stands for a limit that is
      absent or coerces to NaN or an infinity. */
  function ValidateSize(size: Option<int>): (r: int)
    ensures 1 <= r <= MaxSearchSize
    ensures size.None? || size == Some(0) ==> r == DefaultSearchSize
    ensures size.Some? && 1 <= size.value <= MaxSearchSize ==> r == size.value
    ensures size.Some? && size.value > MaxSearchSize ==> r == MaxSearchSize
    ensures size.Some? && size.value < 0 ==> r == 1
  {
    var s := if size.Some? && size.value != 0 then size.value else DefaultSearchSize;
    if s > MaxSearchSize then MaxSearchSize
    else if s < 1 then 1
    else s
  }

  /** A validated size validates to itself. */
  lemma {:induction false} ValidateSizeIdempotent(size: Option<int>)
    ensures ValidateSize(Some(ValidateSize(size))) == ValidateSize(size)
  {
  }

  /** `validatePage(page, size)`: an absent, NaN or zero page counts as page 1;
      the result is the `from` offset `(page - 1) * size`, or 0 below page 1. */
  function ValidatePage(page: Option<int>, size: int): (r: int)
    ensures page.None? || page == Some(0) ==> r == 0
    ensures page.Some? && page.value < 1 ==> r == 0
    ensures page.Some? && page.value >= 1 ==> r == (page.value - 1) * size
    ensures size >= 1 ==> r >= 0
  {
    var p := if page.Some? && page.value != 0 then page.value else 1;
    if p < 1 then 0
    else (p - 1) * size
  }

  /** Pages tile the results: page 1 starts at offset 0 and each next page
      starts one size further on. */
  lemma {:induction false} PagesTile(page: int, size: int)
    requires page >= 1
    ensures ValidatePage(Some(1), size) == 0
    ensures ValidatePage(Some(page + 1), size) == ValidatePage(Some(page), size) + size
  {
    assert page * size == (page - 1) * size + size;
  }

  // ---------------------------------------------------------------------------
  // The negation prefix (lines 17-19)

  /** The groups of a successful `NOT_REGEX.exec(s)` for `/^(\{!\})?(.+)$/`:
      whether group 1 (the "{!}" prefix) took part, and group 2. */
  datatype NotMatch = NotMatch(negated: bool, rest: string)

  predicate NoLineTerminator(s: string) {
    forall i :: 0 <= i < |s| ==> !IsLineTerminator(s[i])
  }

  /** `s` opens with "{!}" and has something after it. */
  predicate NegatedForm(s: string) {
    |s| > |NotPrefix| && s[..|NotPrefix|] == NotPrefix
  }

  /** `NOT_REGEX.exec(s)`. `.` matches anything but a line terminator and
      `.+` needs at least one character, so the match fails (`null`) on ""
      and on any text holding a line terminator. The optional group is tried
      first, so "{!}" itself matches with the group left out. */
  function ExecNotRegex(s: string): (r: Option<NotMatch>)
    ensures r.Some? <==> s != "" && NoLineTerminator(s)
    ensures r.Some? ==> (r.value.negated <==> NegatedForm(s))
  {
    if s == "" || !NoLineTerminator(s) then None
    else if NegatedForm(s) then Some(NotMatch(true, s[|NotPrefix|..]))
    else Some(NotMatch(false, s))
  }

  /** The text a match was read from. */
  function Render(m: NotMatch): string {
    (if m.negated then NotPrefix else "") + m.rest
  }

  /** A match gives back the text it was read from. */
  lemma {:induction false} ExecRender(s: string)
    requires ExecNotRegex(s).Some?
    ensures Render(ExecNotRegex(s).value) == s
  {
    if NegatedForm(s) {
      assert s == s[..|NotPrefix|] + s[|NotPrefix|..];
    }
  }

  /** Rendering is read back as the same match exactly when the rest is
      non-empty, has no line terminator, and (unless negated) does not itself
      look negated. */
  lemma {:induction false} RenderExec(m: NotMatch)
    ensures ExecNotRegex(Render(m)) == Some(m) <==>
      m.rest != "" && NoLineTerminator(m.rest) && (m.negated || !NegatedForm(m.rest))
  {
    var s := Render(m);
    if m.negated {
      assert s[..|NotPrefix|] == NotPrefix;
      assert s[|NotPrefix|..] == m.rest;
      assert forall i :: 0 <= i < |m.rest| ==> s[i + |NotPrefix|] == m.rest[i];
      if NoLineTerminator(s) {
        assert forall i :: 0 <= i < |m.rest| ==> !IsLineTerminator(m.rest[i]);
      }
    } else {
      assert s == m.rest;
    }
  }

  // ---------------------------------------------------------------------------
  // Per-field filters (lines 21-24, 50-61)

  /** `matchValidField(key)`: the key has a search generator. */
  predicate IsSearchKey(cfg: Config, key: string) {
    IndexOf(cfg.searchKeys, key) != -1
  }

  /** The keys that have a search generator, in their original order. */
  function RecognizedKeys(cfg: Config, keys: seq<string>): (r: seq<string>)
    ensures forall k :: k in r <==> k in keys && k in cfg.searchKeys
    ensures |r| <= |keys|
  {
    if |keys| == 0 then []
    else (if IsSearchKey(cfg, keys[0]) then [keys[0]] else []) + RecognizedKeys(cfg, keys[1..])
  }

  /** Recognising keys keeps their order: it distributes over concatenation. */
  lemma {:induction false} RecognizedKeysAppend(cfg: Config, a: seq<string>, b: seq<string>)
    ensures RecognizedKeys(cfg, a + b) == RecognizedKeys(cfg, a) + RecognizedKeys(cfg, b)
  {
    if |a| > 0 {
      assert (a + b)[1..] == a[1..] + b;
      RecognizedKeysAppend(cfg, a[1..], b);
    } else {
      assert a + b == b;
    }
  }

  /** `queryKeys.some(matchValidField)` */
  function AnyRecognized(cfg: Config, keys: seq<string>): (r: bool)
    ensures r <==> exists k :: k in keys && k in cfg.searchKeys
  {
    if |keys| == 0 then false
    else IsSearchKey(cfg, keys[0]) || AnyRecognized(cfg, keys[1..])
  }

  /** The filter `generators.search.filters[key]` gives for one request value:
      called on the text after "{!}" with negation set, or on the whole value. */
  function ValueFilter(key: string, value: string): Clause
    requires ExecNotRegex(value).Some?
  {
    var m := ExecNotRegex(value).value;
    KeyFilter(key, m.rest, m.negated)
  }

  /** The negation rule of a filter value: "{!}" followed by something
      negates that something; any other non-empty value, "{!}" itself
      included, is used whole and not negated. */
  lemma {:induction false} NegationRule(key: string, value: string)
    requires value != "" && NoLineTerminator(value)
    ensures NegatedForm(value) ==> ValueFilter(key, value) == KeyFilter(key, value[|NotPrefix|..], true)
    ensures !NegatedForm(value) ==> ValueFilter(key, value) == KeyFilter(key, value, false)
    ensures value == NotPrefix ==> ValueFilter(key, value) == KeyFilter(key, NotPrefix, false)
  {
  }

  /** Every recognised key has a value whose negation prefix can be read. */
  predicate ValuesReadable(cfg: Config, keys: seq<string>, values: map<string, string>)
    requires forall k :: k in keys && k in cfg.searchKeys ==> k in values
  {
    forall k :: k in keys && k in cfg.searchKeys ==> ExecNotRegex(values[k]).Some?
  }

  /** Readability of a key list is readability of its head and of its tail. */
  lemma {:induction false} ReadableCons(cfg: Config, keys: seq<string>, values: map<string, string>)
    requires |keys| > 0
    requires forall k :: k in keys && k in cfg.searchKeys ==> k in values
    ensures ValuesReadable(cfg, keys, values) <==>
      (keys[0] in cfg.searchKeys ==> ExecNotRegex(values[keys[0]]).Some?) && ValuesReadable(cfg, keys[1..], values)
  {
    assert forall k :: k in keys <==> k == keys[0] || k in keys[1..];
  }

  /** `generateFilters(query, queryKeys)`: one filter per recognised key, in
      key order; other keys give nothing. A recognised key whose value the
      negation pattern cannot match ("" or text with a line break) makes the
      source index `null`, which throws. */
  function GenerateFilters(cfg: Config, keys: seq<string>, values: map<string, string>): (r: Result<seq<Clause>, Error>)
    requires forall k :: k in keys && k in cfg.searchKeys ==> k in values
    ensures r.Ok? <==> ValuesReadable(cfg, keys, values)
    ensures r.Ok? ==> |r.value| == |RecognizedKeys(cfg, keys)|
    ensures r.Ok? ==> forall c :: c in r.value ==> c.KeyFilter?
    ensures r.Ok? ==> forall i :: 0 <= i < |r.value| ==>
      r.value[i] == ValueFilter(RecognizedKeys(cfg, keys)[i], values[RecognizedKeys(cfg, keys)[i]])
  {
    if |keys| == 0 then Ok([])
    else
      var key := keys[0];
      ReadableCons(cfg, keys, values);
      if IsSearchKey(cfg, key) then
        match ExecNotRegex(values[key])
        case None => Err(NoRegexMatch(values[key]))
        case Some(m) =>
          var rest :- GenerateFilters(cfg, keys[1..], values);
          assert RecognizedKeys(cfg, keys) == [key] + RecognizedKeys(cfg, keys[1..]);
          Ok([KeyFilter(key, m.rest, m.negated)] + rest)
      else
        assert RecognizedKeys(cfg, keys) == RecognizedKeys(cfg, keys[1..]);
        GenerateFilters(cfg, keys[1..], values)
  }

  // ---------------------------------------------------------------------------
  // Boost filters (lines 63-87)

  /** Index `j` of the parallel lists has a field and a value (`!field || !val`
      skips it). */
  predicate KeptAt(fields: seq<string>, values: seq<string>, j: nat) {
    Truthy(At(fields, j)) && Truthy(At(values, j))
  }

  /** The indices in [from, |types|) that are not skipped, in increasing order. */
  function KeptIndices(types: seq<string>, fields: seq<string>, values: seq<string>, from: nat): (r: seq<nat>)
    requires from <= |types|
    ensures |r| <= |types| - from
    ensures forall k :: 0 <= k < |r| ==> from <= r[k] < |types| && KeptAt(fields, values, r[k])
    ensures forall j :: from <= j < |types| && KeptAt(fields, values, j) ==> j in r
    ensures forall k, l :: 0 <= k < l < |r| ==> r[k] < r[l]
    decreases |types| - from
  {
    if from == |types| then []
    else (if KeptAt(fields, values, from) then [from] else []) + KeptIndices(types, fields, values, from + 1)
  }

  /** The scoring function built for a kept index: the type is read through
      the negation pattern, and negation comes from the type's prefix. */
  function BoostAt(types: seq<string>, fields: seq<string>, values: seq<string>, boosts: seq<string>, j: nat): ScoreFunction
    requires j < |types| && KeptAt(fields, values, j) && ExecNotRegex(types[j]).Some?
  {
    var m := ExecNotRegex(types[j]).value;
    Boost.Filter(Boost.BoostSettings(m.rest, fields[j], values[j], At(boosts, j)), m.negated)
  }

  /** Every kept index has a type the negation pattern can read. */
  predicate TypesReadable(types: seq<string>, fields: seq<string>, values: seq<string>, from: nat) {
    forall j :: from <= j < |types| && KeptAt(fields, values, j) ==> ExecNotRegex(types[j]).Some?
  }

  /** The `forEach` over the types from index `from` on. */
  function BoostFiltersFrom(types: seq<string>, fields: seq<string>, values: seq<string>, boosts: seq<string>, from: nat)
    : (r: Result<seq<ScoreFunction>, Error>)
    requires from <= |types|
    ensures r.Ok? <==> TypesReadable(types, fields, values, from)
    ensures r.Ok? ==> |r.value| == |KeptIndices(types, fields, values, from)|
    decreases |types| - from
  {
    if from == |types| then Ok([])
    else if !KeptAt(fields, values, from) then BoostFiltersFrom(types, fields, values, boosts, from + 1)
    else
      match ExecNotRegex(types[from])
      case None => Err(NoRegexMatch(types[from]))
      case Some(m) =>
        var f := Boost.Filter(Boost.BoostSettings(m.rest, fields[from], values[from], At(boosts, from)), m.negated);
        var rest :- BoostFiltersFrom(types, fields, values, boosts, from + 1);
        Ok([f] + rest)
  }

  /** An index that is skipped contributes nothing. */
  lemma {:induction false} BoostFiltersFromSkip(types: seq<string>, fields: seq<string>, values: seq<string>, boosts: seq<string>, from: nat)
    requires from < |types| && !KeptAt(fields, values, from)
    ensures BoostFiltersFrom(types, fields, values, boosts, from) == BoostFiltersFrom(types, fields, values, boosts, from + 1)
    ensures KeptIndices(types, fields, values, from) == KeptIndices(types, fields, values, from + 1)
  {
  }

  /** A kept index contributes its own function ahead of the rest. */
  lemma {:induction false} BoostFiltersFromKeep(types: seq<string>, fields: seq<string>, values: seq<string>, boosts: seq<string>, from: nat)
    requires from < |types| && KeptAt(fields, values, from)
    requires BoostFiltersFrom(types, fields, values, boosts, from).Ok?
    ensures ExecNotRegex(types[from]).Some? && BoostFiltersFrom(types, fields, values, boosts, from + 1).Ok?
    ensures BoostFiltersFrom(types, fields, values, boosts, from).value
         == [BoostAt(types, fields, values, boosts, from)] + BoostFiltersFrom(types, fields, values, boosts, from + 1).value
    ensures KeptIndices(types, fields, values, from) == [from] + KeptIndices(types, fields, values, from + 1)
  {
  }

  /** The k-th function generated from index `from` on is the one built for
      the k-th kept index. */
  lemma {:induction false} BoostFiltersFromAt(types: seq<string>, fields: seq<string>, values: seq<string>, boosts: seq<string>, from: nat, k: nat)
    requires from <= |types| && BoostFiltersFrom(types, fields, values, boosts, from).Ok?
    requires k < |BoostFiltersFrom(types, fields, values, boosts, from).value|
    ensures BoostFiltersFrom(types, fields, values, boosts, from).value[k]
         == BoostAt(types, fields, values, boosts, KeptIndices(types, fields, values, from)[k])
    decreases |types| - from
  {
    if from == |types| {
    } else if !KeptAt(fields, values, from) {
      BoostFiltersFromSkip(types, fields, values, boosts, from);
      BoostFiltersFromAt(types, fields, values, boosts, from + 1, k);
    } else {
      BoostFiltersFromKeep(types, fields, values, boosts, from);
      if k > 0 {
        BoostFiltersFromAt(types, fields, values, boosts, from + 1, k - 1);
      }
    }
  }

  /** `generateBoostFilters(filterTypes, filterFields, filterValues, filterBoosts)` */
  function GenerateBoostFilters(types: seq<string>, fields: seq<string>, values: seq<string>, boosts: seq<string>)
    : (r: Result<seq<ScoreFunction>, Error>)
    ensures r.Ok? <==> TypesReadable(types, fields, values, 0)
    ensures r.Ok? ==> |r.value| <= |types|
    ensures r.Ok? ==> |r.value| == |KeptIndices(types, fields, values, 0)|
  {
    BoostFiltersFrom(types, fields, values, boosts, 0)
  }

  /** Each generated scoring function answers to the index it was built
      from: its filter carries that index's field and value (nothing for a
      `__proto__` field, whose assignment is ignored), and it is negated
      exactly when that index's type reads "{!}" followed by a type other than
      `match_all`. */
  lemma {:induction false} BoostFiltersFollowTypes(types: seq<string>, fields: seq<string>, values: seq<string>, boosts: seq<string>, k: nat)
    requires GenerateBoostFilters(types, fields, values, boosts).Ok?
    requires k < |GenerateBoostFilters(types, fields, values, boosts).value|
    ensures var j := KeptIndices(types, fields, values, 0)[k];
      var f := GenerateBoostFilters(types, fields, values, boosts).value[k];
      && f.filter.SearchFilter?
      && f.filter.negate == (NegatedForm(types[j]) && types[j][|NotPrefix|..] != Boost.MatchAllType)
      && (f.filter.filterType != Boost.MatchAllType && fields[j] != ProtoKey ==> f.filter.fields == map[fields[j] := Text(values[j])])
      && (fields[j] == ProtoKey ==> f.filter.fields == map[])
  {
    BoostFiltersFromAt(types, fields, values, boosts, 0, k);
  }

  // ---------------------------------------------------------------------------
  // Envelope selection (lines 89-128)

  /** `generateBaseQuery(authenticated)` */
  function GenerateBaseQuery(authenticated: bool): (q: Query)
    ensures Depth(q) == 1 && !q.FunctionScore?
    ensures |Core(q).must| > 0 && Core(q).must[0] == DeletedAtMissing
    ensures HasPublished(q) <==> !authenticated
    ensures q.query == MatchAll
    ensures Core(q) == BoolFilter(if authenticated then [DeletedAtMissing] else [DeletedAtMissing, PublishedTerm], [])
  {
    if authenticated then AuthenticatedBaseQuery() else BaseQuery()
  }

  /** `generateComplexQuery(queryFilters, filterOccurence, authenticated)`:
      the advanced envelope with the filters placed in the chosen list of
      its outer bool filter; the other list stays empty. */
  function GenerateComplexQuery(filters: seq<Clause>, occurrence: Occurrence, authenticated: bool): (q: Query)
    ensures q.Filtered? && Depth(q) == 2
    ensures q.filter == WithOccurrence(BoolFilter([], []), occurrence, filters)
    ensures q.query == GenerateBaseQuery(authenticated)
    ensures PublishedTerm !in filters ==> (HasPublished(q) <==> !authenticated)
  {
    var searchQuery := if authenticated then AuthenticatedAdvancedQuery() else AdvancedQuery();
    Filtered(searchQuery.query, WithOccurrence(searchQuery.filter, occurrence, filters))
  }

  /** `generateComplexBoostQuery(queryFilters, boostFilters, filterOccurence, auth)`:
      the complex query of the same arguments under a `function_score`
      holding the boost filters. */
  function GenerateComplexBoostQuery(filters: seq<Clause>, boostFilters: seq<ScoreFunction>, occurrence: Occurrence, authenticated: bool)
    : (q: Query)
    ensures q.FunctionScore? && q.functions == boostFilters && q.scoreMode == ScoreModeSum
    ensures q.query == GenerateComplexQuery(filters, occurrence, authenticated)
    ensures Depth(q) == 2
    ensures PublishedTerm !in filters ==> (HasPublished(q) <==> !authenticated)
  {
    var searchQuery := if authenticated then AuthenticatedAdvancedBoostQuery() else AdvancedBoostQuery();
    var inner := searchQuery.query;
    FunctionScore(boostFilters, searchQuery.scoreMode, Filtered(inner.query, WithOccurrence(inner.filter, occurrence, filters)))
  }

  /** `generateBoostQuery(boostFilters, auth)` as written: both branches build
      `authenticatedBaseBoostQuery`, so the published term is missing even
      for an anonymous caller. The compiler never calls it. */
  function GenerateBoostQuery(boostFilters: seq<ScoreFunction>, authenticated: bool): (q: Query)
    ensures q.FunctionScore? && q.functions == boostFilters && q.scoreMode == ScoreModeSum
    ensures Body(q) == AuthenticatedBaseQuery()
  {
    var searchQuery := if authenticated then AuthenticatedBaseBoostQuery() else AuthenticatedBaseBoostQuery();
    FunctionScore(boostFilters, searchQuery.scoreMode, searchQuery.query)
  }

  /** The anonymous boosted base query of the source admits unpublished makes. */
  lemma {:induction false} BoostQueryIgnoresAuthentication(boostFilters: seq<ScoreFunction>)
    ensures !HasPublished(GenerateBoostQuery(boostFilters, false))
    ensures GenerateBoostQuery(boostFilters, false) == GenerateBoostQuery(boostFilters, true)
  {
  }

  /** The boosted base query the compiler evidently means to build at line
      162: the base envelope for the authentication flag under a
      `function_score` holding the boost filters. */
  function GenerateBaseBoostQuery(boostFilters: seq<ScoreFunction>, authenticated: bool): (q: Query)
    ensures q.FunctionScore? && q.functions == boostFilters && q.scoreMode == ScoreModeSum
    ensures Body(q) == GenerateBaseQuery(authenticated)
    ensures HasPublished(q) <==> !authenticated
  {
    var searchQuery := if authenticated then AuthenticatedBaseBoostQuery() else BaseBoostQuery();
    FunctionScore(boostFilters, searchQuery.scoreMode, searchQuery.query)
  }

  // ---------------------------------------------------------------------------
  // Sort (lines 173-193)

  /** One element of a `sortByField` array: a string, or anything else. */
  datatype SortItem = PairText(text: string) | NotText

  /** `sortByField`: one string or an array. A value that is neither (or is
      absent) is `None`: it yields no sort either way. */
  datatype SortParam = SortText(text: string) | SortList(items: seq<SortItem>)

  /** `Array.isArray(sort) ? sort : [sort]` */
  function SortCandidates(sort: SortParam): seq<SortItem> {
    match sort
    case SortText(t) => [PairText(t)]
    case SortList(items) => items
  }

  /** `pair.split(",")[0]` */
  function SortField(pair: string): string {
    Split(pair, ',')[0]
  }

  /** The filter test of line 175-177: a non-empty string whose field is sortable. */
  predicate ValidSortPair(cfg: Config, item: SortItem) {
    item.PairText? && |item.text| > 0 && IndexOf(cfg.validSortFields, SortField(item.text)) != -1
  }

  /** The pairs that pass the filter, in their original order. */
  function ValidPairs(cfg: Config, items: seq<SortItem>): (r: seq<string>)
    ensures forall x :: x in r <==> PairText(x) in items && ValidSortPair(cfg, PairText(x))
    ensures |r| <= |items|
  {
    if |items| == 0 then []
    else (if ValidSortPair(cfg, items[0]) then [items[0].text] else []) + ValidPairs(cfg, items[1..])
  }

  /** Filtering sort pairs keeps their order: it distributes over concatenation. */
  lemma {:induction false} ValidPairsAppend(cfg: Config, a: seq<SortItem>, b: seq<SortItem>)
    ensures ValidPairs(cfg, a + b) == ValidPairs(cfg, a) + ValidPairs(cfg, b)
  {
    if |a| > 0 {
      assert (a + b)[1..] == a[1..] + b;
      ValidPairsAppend(cfg, a[1..], b);
    } else {
      assert a + b == b;
    }
  }

  /** The sort object for one surviving pair: a script sort when its field is
      a script sort type, a regular sort otherwise; the order is what follows
      the first comma up to the next one, `undefined` without a comma. */
  function SortClauseFor(cfg: Config, pair: string): (c: SortClause)
    ensures c.field == SortField(pair)
    ensures c.ScriptSort? <==> SortField(pair) in cfg.scriptSortTypes
    ensures c.order.None? <==> ',' !in pair
    ensures c.order.Some? ==> ',' !in c.order.value
    ensures c.order.Some? ==>
      || SortField(pair) + [','] + c.order.value == pair
      || SortField(pair) + [','] + c.order.value + [','] <= pair
  {
    var parts := Split(pair, ',');
    SplitHead(pair, ',');
    var field := parts[0];
    var order := At(parts, 1);
    if IndexOf(cfg.scriptSortTypes, field) != -1 then ScriptSort(field, order) else RegularSort(field, order)
  }

  /** A pair "field,order" with no further comma survives exactly when its
      field is sortable, and sorts on that field in that order. */
  lemma {:induction false} SortPairClause(cfg: Config, pair: string, field: string, order: string)
    requires ',' !in field && ',' !in order && pair == field + [','] + order
    ensures ValidSortPair(cfg, PairText(pair)) <==> field in cfg.validSortFields
    ensures SortClauseFor(cfg, pair)
         == if field in cfg.scriptSortTypes then ScriptSort(field, Some(order)) else RegularSort(field, Some(order))
  {
    SplitTwo(pair, ',', field, order);
  }

  /** A non-empty pair without a comma survives exactly when it is itself a
      sortable field, and sorts on it with no order. */
  lemma {:induction false} SortWordClause(cfg: Config, field: string)
    requires ',' !in field && |field| > 0
    ensures ValidSortPair(cfg, PairText(field)) <==> field in cfg.validSortFields
    ensures SortClauseFor(cfg, field)
         == if field in cfg.scriptSortTypes then ScriptSort(field, None) else RegularSort(field, None)
  {
    SplitWithout(field, ',');
  }

  /** The sort step: `sort` is absent unless some pair survives the filter;
      the survivors keep their order, and each gets a script sort exactly
      when its field is a script sort type. */
  function GenerateSort(cfg: Config, sort: Option<SortParam>): (r: Option<seq<SortClause>>)
    ensures r.None? <==> sort.None? || |ValidPairs(cfg, SortCandidates(sort.value))| == 0
    ensures r.Some? ==> |r.value| == |ValidPairs(cfg, SortCandidates(sort.value))|
    ensures r.Some? ==> forall i :: 0 <= i < |r.value| ==>
      && r.value[i].field in cfg.validSortFields
      && r.value[i] == SortClauseFor(cfg, ValidPairs(cfg, SortCandidates(sort.value))[i])
  {
    if sort.None? || sort.value == SortText("") then None
    else
      var pairs := ValidPairs(cfg, SortCandidates(sort.value));
      if |pairs| == 0 then None
      else
        assert forall i :: 0 <= i < |pairs| ==> pairs[i] in pairs;
        Some(seq(|pairs|, i requires 0 <= i < |pairs| => SortClauseFor(cfg, pairs[i])))
  }

  // ---------------------------------------------------------------------------
  // The compiler (lines 132-193)

  /** The request parameters the compiler reads. `keys` is `Object.keys(query)`
      as it stands at line 145, in order; `values` holds, for each key, the
      string `NOT_REGEX.exec` reads from `query[key]` after its `ToString`
      conversion (an array as its comma join, `undefined` as "undefined"),
      so every own key has one; `limit` and `page` are the numbers `+query.limit` and
      `+query.page`, `None` for NaN or an infinity; `or` is the truthiness of
      `query.or`; the boost lists are the comma-delimited strings, `None` when
      absent. */
  datatype Params = Params(
    keys: seq<string>,
    values: map<string, string>,
    limit: Option<int>,
    page: Option<int>,
    or: bool,
    boostFilterTypes: Option<string>,
    boostFilterFields: Option<string>,
    boostFilterValues: Option<string>,
    boostScoringValues: Option<string>,
    sortByField: Option<SortParam>)

  /** Every key of the request has a value, so every recognised key does. */
  predicate WellFormed(cfg: Config, p: Params) {
    forall k :: k in p.keys && k in cfg.searchKeys ==> k in p.values
  }

  /** `filterOccurence = query.or ? "should" : "must"` */
  function OccurrenceOf(p: Params): Occurrence {
    if p.or then Should else Must
  }

  /** `isComplexQuery = queryKeys.some(matchValidField)` */
  predicate IsComplex(cfg: Config, p: Params) {
    AnyRecognized(cfg, p.keys)
  }

  /** `boost = boostFilterTypes && boostFilterFields && boostFilterValues` */
  predicate HasBoost(p: Params) {
    Truthy(p.boostFilterTypes) && Truthy(p.boostFilterFields) && Truthy(p.boostFilterValues)
  }

  /** The boost filters of lines 152-158: the four lists split on commas, the
      scoring values defaulting to "". */
  function BoostFiltersOf(p: Params): Result<seq<ScoreFunction>, Error>
    requires HasBoost(p)
  {
    var scoring := if Truthy(p.boostScoringValues) then p.boostScoringValues.value else "";
    GenerateBoostFilters(
      Split(p.boostFilterTypes.value, ','),
      Split(p.boostFilterFields.value, ','),
      Split(p.boostFilterValues.value, ','),
      Split(scoring, ','))
  }

  /** Which envelope a query is: boosted, advanced, authenticated. */
  datatype Shape = Shape(boosted: bool, advanced: bool, authenticated: bool)

  function ShapeOf(q: Query): Shape {
    Shape(q.FunctionScore?, Depth(q) == 2, !HasPublished(q))
  }

  /** The envelope of lines 151-168, filled in; the boosted base branch
      (line 162) is either as written (`intended` false: a call to the
      undefined `generateBaseBoostQuery`, which throws) or as evidently
      intended (`intended` true). */
  function SelectQuery(cfg: Config, p: Params, authenticated: bool, intended: bool): (r: Result<Query, Error>)
    requires WellFormed(cfg, p)
    ensures r.Ok? ==> ShapeOf(r.value) == Shape(HasBoost(p), IsComplex(cfg, p), authenticated)
    ensures r.Ok? && !IsComplex(cfg, p) ==> Body(r.value) == GenerateBaseQuery(authenticated)
    ensures r.Ok? && IsComplex(cfg, p) ==>
      && GenerateFilters(cfg, p.keys, p.values).Ok?
      && Body(r.value).Filtered?
      && Body(r.value).filter
         == WithOccurrence(BoolFilter([], []), OccurrenceOf(p), GenerateFilters(cfg, p.keys, p.values).value)
    ensures r.Ok? && HasBoost(p) ==>
      BoostFiltersOf(p).Ok? && r.value.FunctionScore? && r.value.functions == BoostFiltersOf(p).value
    ensures r.Ok? && HasBoost(p) && IsComplex(cfg, p) ==>
      && GenerateFilters(cfg, p.keys, p.values).Ok?
      && r.value == GenerateComplexBoostQuery(GenerateFilters(cfg, p.keys, p.values).value,
                                              BoostFiltersOf(p).value, OccurrenceOf(p), authenticated)
    ensures r.Ok? && HasBoost(p) && !IsComplex(cfg, p) ==>
      intended && r.value == GenerateBaseBoostQuery(BoostFiltersOf(p).value, authenticated)
    ensures r.Ok? && !HasBoost(p) && IsComplex(cfg, p) ==>
      r.value == GenerateComplexQuery(GenerateFilters(cfg, p.keys, p.values).value, OccurrenceOf(p), authenticated)
    ensures r.Ok? && !HasBoost(p) && !IsComplex(cfg, p) ==> r.value == GenerateBaseQuery(authenticated)
    ensures r.Err? <==>
      if HasBoost(p) then
        BoostFiltersOf(p).Err? || (!IsComplex(cfg, p) && !intended)
        || (IsComplex(cfg, p) && !ValuesReadable(cfg, p.keys, p.values))
      else IsComplex(cfg, p) && !ValuesReadable(cfg, p.keys, p.values)
  {
    var occurrence := OccurrenceOf(p);
    if HasBoost(p) then
      var boostFilters :- BoostFiltersOf(p);
      if IsComplex(cfg, p) then
        var filters :- GenerateFilters(cfg, p.keys, p.values);
        Ok(GenerateComplexBoostQuery(filters, boostFilters, occurrence, authenticated))
      else if intended then
        Ok(GenerateBaseBoostQuery(boostFilters, authenticated))
      else
        Err(ReferenceError("generateBaseBoostQuery"))
    else if IsComplex(cfg, p) then
      var filters :- GenerateFilters(cfg, p.keys, p.values);
      Ok(GenerateComplexQuery(filters, occurrence, authenticated))
    else
      Ok(GenerateBaseQuery(authenticated))
  }

  /** The compiler up to the sort step: the envelope, then `size` from the
      limit, `from` from the page and the already validated size, then the
      sort. */
  function CompileWith(cfg: Config, p: Params, authenticated: bool, intended: bool): (r: Result<SearchDsl, Error>)
    requires WellFormed(cfg, p)
    ensures r.Ok? <==> SelectQuery(cfg, p, authenticated, intended).Ok?
    ensures r.Ok? ==> r.value.query == SelectQuery(cfg, p, authenticated, intended).value
    ensures r.Ok? ==> 1 <= r.value.size <= MaxSearchSize && r.value.size == ValidateSize(p.limit)
    ensures r.Ok? ==> r.value.from == ValidatePage(p.page, r.value.size) && r.value.from >= 0
    ensures r.Ok? ==> r.value.sort == GenerateSort(cfg, p.sortByField)
  {
    var query :- SelectQuery(cfg, p, authenticated, intended);
    var size := ValidateSize(p.limit);
    Ok(SearchDsl(query, size, ValidatePage(p.page, size), GenerateSort(cfg, p.sortByField)))
  }

  /** The compiler as written, up to the sort step. */
  function Compile(cfg: Config, p: Params, authenticated: bool): (r: Result<SearchDsl, Error>)
    requires WellFormed(cfg, p)
    ensures HasBoost(p) && !IsComplex(cfg, p) ==> r.Err?
    ensures r.Err? <==>
      if HasBoost(p) then BoostFiltersOf(p).Err? || !IsComplex(cfg, p) || !ValuesReadable(cfg, p.keys, p.values)
      else IsComplex(cfg, p) && !ValuesReadable(cfg, p.keys, p.values)
  {
    CompileWith(cfg, p, authenticated, false)
  }

  /** The compiler with line 162 building the boosted base query. */
  function CompileIntended(cfg: Config, p: Params, authenticated: bool): (r: Result<SearchDsl, Error>)
    requires WellFormed(cfg, p)
    ensures r.Err? <==>
      if HasBoost(p) then BoostFiltersOf(p).Err? || (IsComplex(cfg, p) && !ValuesReadable(cfg, p.keys, p.values))
      else IsComplex(cfg, p) && !ValuesReadable(cfg, p.keys, p.values)
    ensures r.Ok? && HasBoost(p) && !IsComplex(cfg, p) ==>
      r.value.query == GenerateBaseBoostQuery(BoostFiltersOf(p).value, authenticated)
  {
    CompileWith(cfg, p, authenticated, true)
  }

  /** A readable complex request without boost lists compiles to the
      advanced envelope holding its filters. */
  lemma {:induction false} CompileComplex(cfg: Config, p: Params, authenticated: bool)
    requires WellFormed(cfg, p)
    requires !HasBoost(p) && IsComplex(cfg, p) && ValuesReadable(cfg, p.keys, p.values)
    ensures GenerateFilters(cfg, p.keys, p.values).Ok?
    ensures Compile(cfg, p, authenticated) == Ok(SearchDsl(
      GenerateComplexQuery(GenerateFilters(cfg, p.keys, p.values).value, OccurrenceOf(p), authenticated),
      ValidateSize(p.limit), ValidatePage(p.page, ValidateSize(p.limit)), GenerateSort(cfg, p.sortByField)))
  {
  }

  /** A readable complex request with boost lists that parse compiles to the
      boosted advanced envelope: the filters in the outer bool filter, the
      boost functions, score mode "sum". */
  lemma {:induction false} CompileComplexBoost(cfg: Config, p: Params, authenticated: bool)
    requires WellFormed(cfg, p)
    requires HasBoost(p) && BoostFiltersOf(p).Ok?
    requires IsComplex(cfg, p) && ValuesReadable(cfg, p.keys, p.values)
    ensures GenerateFilters(cfg, p.keys, p.values).Ok?
    ensures Compile(cfg, p, authenticated) == Ok(SearchDsl(
      GenerateComplexBoostQuery(GenerateFilters(cfg, p.keys, p.values).value, BoostFiltersOf(p).value, OccurrenceOf(p), authenticated),
      ValidateSize(p.limit), ValidatePage(p.page, ValidateSize(p.limit)), GenerateSort(cfg, p.sortByField)))
    ensures Compile(cfg, p, authenticated).value.query.scoreMode == ScoreModeSum
    ensures Body(Compile(cfg, p, authenticated).value.query).query == GenerateBaseQuery(authenticated)
  {
  }

  /** Routing: the generated filters land in `should` exactly when `or` is
      set, and in `must` otherwise; the other list of the outer bool filter
      stays empty, so the two are never both populated. */
  lemma {:induction false} OccurrenceRouting(cfg: Config, p: Params, authenticated: bool)
    requires WellFormed(cfg, p) && IsComplex(cfg, p)
    ensures Compile(cfg, p, authenticated).Ok? ==>
      var outer := Body(Compile(cfg, p, authenticated).value.query).filter;
      var filters := GenerateFilters(cfg, p.keys, p.values).value;
      && (p.or ==> outer.should == filters && outer.must == [])
      && (!p.or ==> outer.must == filters && outer.should == [])
  {
  }

  /** A boosted request that names no search key fails as written: with a
      ReferenceError for the undefined builder once its boost lists parse. */
  lemma {:induction false} BoostedBaseQueryUndefined(cfg: Config, p: Params, authenticated: bool)
    requires WellFormed(cfg, p) && HasBoost(p) && !IsComplex(cfg, p)
    ensures Compile(cfg, p, authenticated).Err?
    ensures BoostFiltersOf(p).Ok? ==> Compile(cfg, p, authenticated) == Err(ReferenceError("generateBaseBoostQuery"))
  {
  }
}

=== FILE: terms.dfy ===
/** The terms rule of `generators/index.js` (lines 1-25). In that file the
    text of `generateTermsFilter` sits inside the opening license comment, so
    it is not live code there; it is modelled here as the rule a `terms`
    filter follows: every term is trimmed, and a leading "and" or "or" token
    is taken out of the list and becomes the filter's `execution`. */
module Terms {
  import opened Wrappers
  import opened JsRuntime
  import opened Dsl

  /** The key under which the execution token is stored. */
  const ExecutionKey := "execution"

  /** The filter type handed to `generateSearchFilter`. */
  const TermsType := "terms"

  /** `terms.map(term => term.trim())` */
  function TrimAll(terms: seq<string>): (r: seq<string>)
    ensures |r| == |terms|
    ensures forall i :: 0 <= i < |r| ==> r[i] == Trim(terms[i]) && Trimmed(r[i])
  {
    seq(|terms|, i requires 0 <= i < |terms| => Trim(terms[i]))
  }

  /** A token that selects the execution mode of a terms filter. */
  predicate IsExecutionToken(t: string) {
    t == "and" || t == "or"
  }

  /** The trimmed terms open with an execution token. */
  predicate HasLeadingToken(terms: seq<string>) {
    var t := TrimAll(terms);
    |t| > 0 && IsExecutionToken(t[0])
  }

  /** `generateTermsFilter(terms, field, not)`, as the own properties of the
      filter object it hands to `generateSearchFilter`. */
  function GenerateTermsFilter(terms: seq<string>, field: string, not: bool): (c: Clause)
    ensures c.SearchFilter? && c.filterType == TermsType && c.negate == not
    ensures c.fields.Keys == (if field == ProtoKey then {} else {field}) + (if HasLeadingToken(terms) then {ExecutionKey} else {})
    ensures HasLeadingToken(terms) <==> ExecutionKey in c.fields && c.fields[ExecutionKey].Text?
    ensures HasLeadingToken(terms) ==> c.fields[ExecutionKey] == Text(Trim(terms[0]))
    ensures field != ProtoKey && (field != ExecutionKey || !HasLeadingToken(terms)) ==>
      c.fields[field] == TextList(if HasLeadingToken(terms) then TrimAll(terms)[1..] else TrimAll(terms))
  {
    var trimmed := TrimAll(terms);
    var execution: Option<string> :=
      if |trimmed| > 0 && IsExecutionToken(trimmed[0]) then Some(trimmed[0]) else None;
    var rest := if execution.Some? then trimmed[1..] else trimmed;
    // `filterObj[field] = terms`: for `__proto__` the array becomes the
    // prototype and no own property is created
    var filterObj: map<string, FieldValue> := if field == ProtoKey then map[] else map[field := TextList(rest)];
    var filterObj := if execution.Some? then filterObj[ExecutionKey := Text(execution.value)] else filterObj;
    SearchFilter(TermsType, filterObj, not)
  }

  /** Trimming twice is trimming once. */
  lemma {:induction false} TrimIdempotent(s: string)
    ensures Trim(Trim(s)) == Trim(s)
  {
    TrimOfPadded("", Trim(s), "");
    assert "" + Trim(s) + "" == Trim(s);
  }

  /** The filter depends on the terms only after trimming: padding the terms
      with white space changes nothing. */
  lemma {:induction false} TermsIgnorePadding(terms: seq<string>, field: string, not: bool)
    ensures GenerateTermsFilter(TrimAll(terms), field, not) == GenerateTermsFilter(terms, field, not)
  {
    forall i | 0 <= i < |terms|
      ensures TrimAll(TrimAll(terms))[i] == TrimAll(terms)[i]
    {
      TrimIdempotent(terms[i]);
    }
    assert TrimAll(TrimAll(terms)) == TrimAll(terms);
  }

  /** Only the first position is inspected: a list whose first term is not an
      execution token keeps every term, later "and"/"or" tokens included. */
  lemma {:induction false} OnlyFirstTokenInspected(terms: seq<string>, field: string, not: bool)
    requires |terms| > 0 && !IsExecutionToken(Trim(terms[0]))
    ensures GenerateTermsFilter(terms, field, not).fields
         == if field == ProtoKey then map[] else map[field := TextList(TrimAll(terms))]
  {
  }

  /** Terms that are already trimmed pass through `TrimAll` unchanged. */
  lemma {:induction false} TrimAllOfTrimmed(terms: seq<string>)
    requires forall i :: 0 <= i < |terms| ==> Trimmed(terms[i])
    ensures TrimAll(terms) == terms
  {
    forall i | 0 <= i < |terms|
      ensures Trim(terms[i]) == terms[i]
    {
      TrimOfPadded("", terms[i], "");
      assert "" + terms[i] + "" == terms[i];
    }
  }

  /** Trimmed terms that open with an execution token give that token as
      `execution` and the remaining terms as the field's values. */
  lemma {:induction false} LeadingTokenFilter(terms: seq<string>, field: string, not: bool)
    requires |terms| > 0 && IsExecutionToken(terms[0])
    requires forall i :: 0 <= i < |terms| ==> Trimmed(terms[i])
    requires field != ProtoKey && field != ExecutionKey
    ensures GenerateTermsFilter(terms, field, not)
         == SearchFilter(TermsType, map[field := TextList(terms[1..]), ExecutionKey := Text(terms[0])], not)
  {
    TrimAllOfTrimmed(terms);
  }

  /** "and,a,b" splits on its commas into three terms. */
  lemma {:induction false} AndListSplit()
    ensures Split("and,a,b", ',') == ["and", "a", "b"]
  {
    var parts := ["and", "a", "b"];
    assert Join(parts[2..], ',') == "b";
    assert Join(parts[1..], ',') == "a" + [','] + "b";
    assert Join(parts, ',') == "and,a,b";
    SplitJoin(parts, ',');
  }

  /** A comma-delimited request value "and,a,b" gives the values ["a", "b"]
      with execution "and". */
  lemma {:induction false} AndListExample()
    ensures GenerateTermsFilter(Split("and,a,b", ','), "tags", false)
         == SearchFilter(TermsType, map["tags" := TextList(["a", "b"]), ExecutionKey := Text("and")], false)
  {
    AndListSplit();
    AndListFilter();
  }

  /** The three terms "and", "a", "b" on `tags`. */
  lemma {:induction false} AndListFilter()
    ensures GenerateTermsFilter(["and", "a", "b"], "tags", false)
         == SearchFilter(TermsType, map["tags" := TextList(["a", "b"]), ExecutionKey := Text("and")], false)
  {
    var parts := ["and", "a", "b"];
    assert "tags" != ProtoKey && "tags" != ExecutionKey;
    LeadingTokenFilter(parts, "tags", false);
    assert parts[1..] == ["a", "b"];
  }
}

=== FILE: utils.dfy ===
/** `lib/queryBuilder/utils.js`: the helpers of the advanced search, namely the
    field-to-filter-type table, a negation pattern whose prefix is mandatory,
    the search-key test, the filter validator, and a second copy of the size
    and page validators. */
module Utils {
  import opened Wrappers
  import opened JsRuntime
  import opened Dsl
  import Search

  /** `DEFAULT_SEARCH_SIZE` and `MAX_SEARCH_SIZE` */
  const DefaultSearchSize := 10
  const MaxSearchSize := 1000

  /** `FIELD_FILTER_MAP`: the filter types each field accepts. */
  const FieldFilterMap: map<string, seq<string>> := map[
    "tagPrefix" := ["prefix"],
    "id" := ["query"],
    "title" := ["query"],
    "description" := ["query"],
    "author" := ["term"],
    "user" := ["term"],
    "url" := ["term"],
    "contentType" := ["term"],
    "remixedFrom" := ["term"],
    "tags" := ["terms"]
  ]

  /** The property names a plain JavaScript object inherits from
      `Object.prototype`. Looking one of them up in `FIELD_FILTER_MAP` finds a
      function or an object, which is truthy but has no `indexOf`. */
  const InheritedProperties: set<string> := {
    "constructor", "hasOwnProperty", "isPrototypeOf", "propertyIsEnumerable",
    "toString", "toLocaleString", "valueOf", "__proto__",
    "__defineGetter__", "__defineSetter__", "__lookupGetter__", "__lookupSetter__"
  }

  /** `NOT_REGEX = /^\{!\}(.+)$/`: group 1 of a match, the text after a
      mandatory "{!}" prefix. */
  function NotRegex(s: string): (r: Option<string>)
    ensures r.Some? <==> Search.NegatedForm(s) && Search.NoLineTerminator(s)
    ensures r.Some? ==> Search.NotPrefix + r.value == s
  {
    if Search.NegatedForm(s) && Search.NoLineTerminator(s[|Search.NotPrefix|..]) then
      assert s == s[..|Search.NotPrefix|] + s[|Search.NotPrefix|..];
      Some(s[|Search.NotPrefix|..])
    else
      None
  }

  /** The mandatory-prefix pattern matches exactly the values the optional
      prefix pattern of the compiler reads as negated, with the same text. */
  lemma {:induction false} NotRegexAgreesWithSearch(s: string)
    ensures NotRegex(s).Some? <==> Search.ExecNotRegex(s).Some? && Search.ExecNotRegex(s).value.negated
    ensures NotRegex(s).Some? ==> Search.ExecNotRegex(s).value.rest == NotRegex(s).value
  {
  }

  /** `hasValidField(field)`: the field has a search generator. */
  function HasValidField(cfg: Config, field: string): (b: bool)
    ensures b <==> field in cfg.searchKeys
  {
    IndexOf(cfg.searchKeys, field) != -1
  }

  /** The `{field, type, query}` object handed to `isValidFilter`; a missing
      property is `None`. */
  datatype FilterSpec = FilterSpec(field: Option<string>, filterType: Option<string>, query: Option<string>)

  /** `isValidFilter(filter)`: false when a part is missing or empty, else
      whether the table lists the type for the field. A field named after an
      inherited property makes the table lookup truthy and the following
      `indexOf` call throw. */
  function IsValidFilter(filter: FilterSpec): (r: Result<bool, Error>)
    ensures !Truthy(filter.field) || !Truthy(filter.filterType) || !Truthy(filter.query) ==> r == Ok(false)
    ensures r == Ok(true) <==>
      && Truthy(filter.field) && Truthy(filter.filterType) && Truthy(filter.query)
      && filter.field.value in FieldFilterMap
      && filter.filterType.value in FieldFilterMap[filter.field.value]
    ensures r.Err? <==>
      Truthy(filter.field) && Truthy(filter.filterType) && Truthy(filter.query)
      && filter.field.value in InheritedProperties
  {
    if !Truthy(filter.field) || !Truthy(filter.filterType) || !Truthy(filter.query) then Ok(false)
    else
      var field := filter.field.value;
      if field in FieldFilterMap then Ok(IndexOf(FieldFilterMap[field], filter.filterType.value) != -1)
      else if field in InheritedProperties then Err(NotAFunction(field + ".indexOf"))
      else Ok(false)
  }

  /** The table in two examples: `tags` takes only "terms" filters and
      `title` only "query" filters. */
  lemma {:induction false} TableExamples(t: string, q: string)
    requires t != "" && q != ""
    ensures IsValidFilter(FilterSpec(Some("tags"), Some(t), Some(q))) == Ok(t == "terms")
    ensures IsValidFilter(FilterSpec(Some("title"), Some(t), Some(q))) == Ok(t == "query")
  {
  }

  /** `validateSize(size)`, the copy in this file. */
  function ValidateSize(size: Option<int>): (r: int)
    ensures 1 <= r <= MaxSearchSize
    ensures size.None? || size == Some(0) ==> r == DefaultSearchSize
    ensures size.Some? && 1 <= size.value <= MaxSearchSize ==> r == size.value
  {
    var s := if size.Some? && size.value != 0 then size.value else DefaultSearchSize;
    if s > MaxSearchSize then MaxSearchSize
    else if s < 1 then 1
    else s
  }

  /** `validatePage(page, size)`, the copy in this file. */
  function ValidatePage(page: Option<int>, size: int): (r: int)
    ensures page.None? || page == Some(0) || (page.Some? && page.value < 1) ==> r == 0
    ensures page.Some? && page.value >= 1 ==> r == (page.value - 1) * size
    ensures size >= 1 ==> r >= 0
  {
    var p := if page.Some? && page.value != 0 then page.value else 1;
    if p < 1 then 0
    else (p - 1) * size
  }

  /** The two copies of the validators behave the same on every input. */
  lemma {:induction false} ValidatorsAgree(size: Option<int>, page: Option<int>, n: int)
    ensures ValidateSize(size) == Search.ValidateSize(size)
    ensures ValidatePage(page, n) == Search.ValidatePage(page, n)
  {
  }
}

=== FILE: wrappers.dfy ===
/** Option and Result, the two failure-compatible wrappers the model uses:
    `Option` for JavaScript values that may be `undefined` (or a number that
    may be NaN), `Result` for operations that can throw. */
module Wrappers {

  datatype Option<+T> = None | Some(value: T)

  /** The outcome of a computation that either yields a value or throws. */
  datatype Result<+T, +E> = Ok(value: T) | Err(error: E) {

    predicate IsFailure() {
      Err?
    }

    function PropagateFailure<U>(): Result<U, E>
      requires Err?
    {
      Err(error)
    }

    function Extract(): T
      requires Ok?
    {
      value
    }
  }
}
